=== FILE: README.md ===
# oupsnow projects and functions, modelled in Dafny

This is a model of the heart of oupsnow, a small issue tracker: the
`Project` document with its embedded members, and the global `Function`
registry of roles a member can hold. It covers:

- how a save refreshes each member's copied fields from its function and
  user, then validates the project. A project needs a name that no other
  project uses, at least one admin member, and no user twice;
- the `created` and `updated` audit events a save records;
- the ticket counter and the tag counts;
- adding a member and reassigning members' functions;
- creating a project with its founder as admin;
- classifying milestones into current, outdated, upcoming and undated;
- the registry's lookups (`admin`, `not_admin`) and its bulk rewrite of
  the `project_admin` flags.

Persistence is a value. `Projects.Save` takes a project and an `Env` and
returns the project as it stands after the save, together with how the
save ended: saved, rejected with its validation errors, or the
missing-creator exception. The `Env` holds what a save reads outside the
document: the registry, the users' logins and the names of the other
projects. A project's `persisted` flag records whether it has been
inserted.

Modules, one file each:

- `Common` (common.dfy): nil as `Option`, Ruby's `blank?`, first-match,
  `any?`, `uniq` and filter.
- `Functions` (functions.dfy): the registry.
- `Members` (members.dfy): embedded members and their refresh.
- `Milestones` (milestones.dfy)
- `Tags` (tags.dfy)
- `Projects` (projects.dfy): the aggregate's operations.
- `ProjectLemmas` (project_lemmas.dfy): properties that span several
  operations.

Where the Ruby semantics matter, the model follows them:

- `num_ticket || 1` defaults only a nil counter, since 0 is truthy.
- A Boolean key that was never set is nil. The query
  `{project_admin: false}` does not match it, so the flag is an
  `Option<bool>`.
- `detect` and `first` return the first match in stored order.
- `uniq!` returns nil exactly when there are no duplicates.
- A Ruby 1.8 hash is walked in no promised order, so the order
  `change_functions` visits its entries in is a parameter (`order`), and
  the outcome is proved the same for every order. This holds because the
  model identifies each key with one member id; the source matches keys by
  their string form, so two keys with the same string form (an ObjectId
  and its string) fall outside the model (see "Left out").
- The before_validation refreshes stay in memory even when validation
  then fails.
- The unique check on a function's name looks up the first stored
  document with that name and passes when it is the document being saved.

A project saved without a creator is still inserted: the `ArgumentError`
is raised by the `after_create` callback, which runs after the insert.
The outcome is `CreatorMissing` with `persisted` true and no event
(`ProjectLemmas.CreateWithoutCreator`).

A consequence shown by the proofs: when the registry's document ids are
distinct, `change_functions`' fast check already guarantees the save-time
"need an admin" validation (`ProjectLemmas.ChangeFunctionsKeepsAdmin`).
The fast check requires that some assigned function is flagged admin, and
the first member with that key is given it and becomes an admin at the
refresh, whatever other members share its id. Within the model, only a
registry holding two documents with the same id escapes this:
`Function.find` may then return an earlier, unflagged function with that
id. In the source a second escape exists that the model cannot express: a
hash with two keys that share a string form (an ObjectId and its string)
selects the same member twice, and the entry visited last wins.

## Model

| member | source | states |
|---|---|---|
| `Functions.Admin` | app/models/function.rb:31-33 | nil exactly when no function is flagged `project_admin` true; otherwise the first such function in stored order |
| `Functions.NotAdmin` | app/models/function.rb:42-44 | nil exactly when no function is flagged false (a nil flag matches neither); otherwise the first function flagged false |
| `Functions.Find` | app/models/project.rb:101 | `Function.find(id)`: nil exactly when no stored function has that id, otherwise the first stored one with it |
| `Functions.InsertFunction` | app/models/function.rb:11 | an insert passes validation (name not blank, and the first stored document with that name, if any, is this one) and then appends the function; with a fresh id that means the name is not blank and unused, and the registry stays well-formed |
| `Functions.UpdateProjectAdmin` | app/models/function.rb:51-56 | ids and names are kept; each function that passes its save's validation (non-blank name, first stored with that name) is flagged by whether its id is listed; one that fails keeps its old flag; well-formedness is preserved |
| `Functions.DuplicateNameFirstWins` | app/models/function.rb:51-56 | with two functions named alike, listing the first flags it true and makes it `Function.admin`, while the second fails the uniqueness check and keeps a nil flag |
| `Functions.UpdateProjectAdminFlags` | app/models/function.rb:51-56 | on a well-formed registry, afterwards a function is flagged true iff its id is listed and false iff it is not; no flag is left nil |
| `Functions.UpdateProjectAdminIdempotent` | app/models/function.rb:51-56 | running the rewrite twice with the same list gives the same registry as running it once |
| `Functions.AdminAfterUpdate` | app/models/function.rb:31-56 | after the rewrite with a list naming an existing function, `admin` returns a listed function |
| `Functions.NotAdminAfterUpdate` | app/models/function.rb:42-56 | after the rewrite, if some function is unlisted, `not_admin` returns an unlisted function |
| `Members.Refresh` | app/models/project.rb:237-248 | a member keeps its id, user and function, and takes the function's name and flag and the user's login |
| `Members.RefreshAdmin` | app/models/project.rb:237-242 | a refreshed member is admin exactly when its function is flagged true; the stale copied flag plays no part |
| `Milestones.Current` | app/models/project.rb:129-132 | nil only without milestones; if any milestone lies in the future, it is the earliest future one; otherwise it is the first stored one |
| `Milestones.Sort` | app/models/project.rb:142-144 | the result is ordered by date in the requested direction and is a permutation of the input |
| `Milestones.Outdated` | app/models/project.rb:141-145 | exactly the non-current milestones dated before now, each as often as stored, latest first |
| `Milestones.Upcoming` | app/models/project.rb:153-157 | exactly the non-current milestones dated after now, each as often as stored, earliest first |
| `Milestones.NoDate` | app/models/project.rb:165-168 | exactly the non-current milestones without a date, each as often as stored |
| `Milestones.BucketsDisjoint` | app/models/project.rb:129-168 | the current milestone is in no bucket; the buckets share no milestone; a milestone dated exactly now is in none |
| `Milestones.BucketsCover` | app/models/project.rb:141-168 | every non-current milestone lands in the bucket its date selects |
| `Milestones.ExampleOutdated` | app/models/project.rb:141-145 | with dates two and one before now and one and two after, the outdated list is the two past milestones, latest first |
| `Milestones.ExampleUpcoming` | app/models/project.rb:153-157 | in that example the nearer future milestone is current, and only the farther one is upcoming |
| `Tags.CountTags` | app/models/project.rb:178-185 | the counting loop's map has a key for exactly the tags seen, each mapped to its number of occurrences |
| `Tags.TagCounts` | app/models/project.rb:177-188 | a tag is a key iff it occurs on some ticket, and its count is its total occurrences over all tickets |
| `Tags.TagCountsOrderIndependent` | app/models/project.rb:179 | reordering the tickets does not change the counts |
| `Tags.RecomputeAfterAdding` | app/models/project.rb:177-188 | recomputing after one more ticket gives the previous counts plus that ticket's tags |
| `Tags.ExampleFifthTicket` | app/models/project.rb:177-188 | tickets tagged `[]`, `[foo]`, `[foo, bar]`, `[bar]`, `[foo, bar, baz]` give `{foo: 3, bar: 3, baz: 1}` |
| `Projects.AnyMember` | app/models/project.rb:76-78 | `has_member?` computed with `any?` is true exactly when some member's user id is the user's |
| `Projects.ProjectMembership` | app/models/project.rb:85-87 | a record is returned iff the user is a member; it is that user's first record |
| `Projects.Normalise` | app/models/project.rb:48-49 | every member is refreshed from its function and user; nothing else in the project changes; the result still resolves |
| `Projects.HaveOneAdmin` | app/models/project.rb:211-213 | `have_one_admin` computed with `any?` is true exactly when some member reads as admin |
| `Projects.OnlyOnceEachMember` | app/models/project.rb:250-252 | `uniq!` on the members' user ids removes nothing exactly when no user id occurs twice |
| `Projects.Violations` | app/models/project.rb:30-38 | each error is present iff its condition fails: name taken, no admin member, a user twice, name blank; no error is repeated |
| `ProjectLemmas.ViolationsFromSource` | app/models/project.rb:30-38 | the errors are exactly those the source's helpers `have_one_admin` and `only_once_each_member` produce, in declaration order |
| `Projects.Valid` | app/models/project.rb:30-49 | after the refresh, a project is valid iff its name is present and free, some refreshed member is admin, and no user is a member twice |
| `Projects.Save` | app/models/project.rb:44-45 | rejected iff invalid, leaving the refreshed project. Creation records one `created` event by the creator, or raises after the insert without one. An update records one `updated` event iff an updater is set |
| `Projects.IssueNumber` | app/models/project.rb:64-66 | hands out the stored counter, or 1 when it is nil, and leaves the counter one past it |
| `Projects.NewNumTicket` | app/models/project.rb:64-69 | returns the number issued, and the saved project's counter is one past it |
| `Projects.UpdateTagCounts` | app/models/project.rb:177-188 | after the save, the tag-count map counts every tag over all tickets, and the tickets are unchanged |
| `Projects.AddMember` | app/models/project.rb:115-122 | nothing changes when the user is already a member; otherwise exactly one member is appended, holding the user's login and the function's name and flag, and it becomes the user's membership |
| `Projects.Step` | app/models/project.rb:99-101 | one iteration: the first member whose id is the key (the one `detect` finds) gets `Function.find(value).id`, which is the value itself; every other member is unchanged |
| `Projects.Loop` | app/models/project.rb:98-102 | walking the entries changes members' function ids and nothing else, and keeps the member count |
| `Projects.LoopEffect` | app/models/project.rb:98-102 | with each key visited once, the first member with a key ends up holding that key's function id, and every other member is left as it was |
| `Projects.ReassignAnyOrder` | app/models/project.rb:98-102 | with keys identified by member id, every order of walking the hash gives the same members, the closed form `Reassign` |
| `Projects.AdminExists` | app/models/project.rb:97 | the fast check `Function.exists?` is true exactly when some stored function flagged admin has its id among the assigned values |
| `Projects.ChangeFunctions` | app/models/project.rb:96-104 | for any input, returns false with the project untouched iff no assigned function is flagged admin; otherwise the outcome is the save of the reassigned project, the same whatever order the loop walks the hash in (keys identified by member id) |
| `ProjectLemmas.ChangeFunctionsEmpty` | app/models/project.rb:96-97 | an empty assignment returns false and leaves the project as it was, whatever its members reference |
| `ProjectLemmas.ChangeFunctionsUnknownMember` | app/models/project.rb:96-97 | a key naming no member with a non-admin function returns false with the project untouched, before any dereference |
| `Projects.NewProject` | app/models/project.rb:200 | `Project.new(attributes)`: an unsaved project with the given name and description, no counter, no members, milestones, tickets or events, and no actors |
| `Projects.NewWithAdminMember` | app/models/project.rb:199-205 | an unsaved project whose single member is the user holding `Function.admin`, or nil when none exists; the user is the creator |
| `ProjectLemmas.NormaliseIdempotent` | app/models/project.rb:237-248 | refreshing twice is the same as refreshing once |
| `ProjectLemmas.NormaliseIgnoresCopies` | app/models/project.rb:237-248 | members agreeing on id, user and function refresh to the same members, whatever stale copies they carried |
| `ProjectLemmas.ValidIff` | app/models/project.rb:30-38 | valid iff the name is present and not another project's, some member's function is flagged admin, and no user appears twice |
| `ProjectLemmas.NoNameInvalid` | spec/models/project_spec.rb:9-13 | a project without a name, or with a blank one, is invalid with an error on `name` |
| `ProjectLemmas.NameClashSingleError` | spec/models/project_spec.rb:15-21 | an otherwise valid project reusing another's name has exactly one error, on `name` |
| `ProjectLemmas.NoMembersInvalid` | spec/models/project_spec.rb:23-25 | a project without members is invalid with 'need an admin' on `project_members` |
| `ProjectLemmas.NoAdminMemberInvalid` | spec/models/project_spec.rb:27-31 | no member holding an admin-flagged function makes the project invalid, whatever flags the members carry |
| `ProjectLemmas.SaveKeepsValid` | app/models/project.rb:44-49 | saving a valid stored project succeeds, and the result is still valid with the same counter and tickets |
| `ProjectLemmas.RenameWithUpdater` | spec/models/project_spec.rb:39-46 | renaming a valid project to a free name, with an updater set, saves it and adds exactly one `updated` event by that user |
| `ProjectLemmas.IssueKeepsValid` | app/models/project.rb:64-66 | issuing a number leaves validity unchanged |
| `ProjectLemmas.NextTicket` | app/models/project.rb:64-69 | on a valid stored project, `new_num_ticket` returns the expected number, the save succeeds, and the counter moves one on |
| `ProjectLemmas.TicketNumbersFromFresh` | app/models/project.rb:64-69 | from a nil counter, three calls return 1, 2 and 3 and leave the counter at 4 |
| `ProjectLemmas.UpdateTagCountsIdempotent` | app/models/project.rb:177-188 | recomputing the tag counts again leaves the map unchanged |
| `ProjectLemmas.AddMemberHasMember` | spec/models/project_spec.rb:87-102 | after adding a user, the members are exactly the previous members and that user |
| `ProjectLemmas.AddMemberKeepsDistinctUsers` | app/models/project.rb:115-122 | adding a member keeps "no user twice" |
| `ProjectLemmas.AddMemberTwice` | app/models/project.rb:115-116 | adding an existing member again changes nothing, whatever function is given |
| `ProjectLemmas.AddMemberOnce` | app/models/project.rb:115-122 | a newly added user has exactly one membership record |
| `ProjectLemmas.ChangeFunctionsApplies` | app/models/project.rb:98-103 | whatever the order of the hash, the change attempts to save the reassigned project; after the save, each member keeps its id and user; the first member with an assigned id holds the mapped function, the others keep theirs |
| `ProjectLemmas.ChangeFunctionsKeepsAdmin` | app/models/project.rb:97-103 | with distinct function ids in the registry, passing the fast check means the saved project has an admin member and never reports 'need an admin' |
| `ProjectLemmas.ChangeFunctionsLastAdmin` | app/models/project.rb:96-104 | when no member would hold an admin-flagged function, the change returns false, and any save attempted reports 'need an admin' |
| `ProjectLemmas.CreateWithAdminMember` | app/models/project.rb:199-224 | with an admin function stored and a free name, the save succeeds: the founder is the only member, holds `Function.admin` and is admin, and one `created` event by the founder is recorded |
| `ProjectLemmas.CreateWithoutAdminFunction` | app/models/project.rb:199-202 | without an admin-flagged function, the founder's member references nil, which the save's refresh cannot resolve |
| `ProjectLemmas.CreateWithoutCreator` | app/models/project.rb:219-220 | an otherwise valid new project without a creator is inserted, and then the after_create hook raises, with no event recorded |

## Left out

- The destroy cascade of members, milestones, tickets and events (`:dependent => :destroy`): it belongs to the storage layer.
- MongoMapper persistence itself (queries, ids, `timestamps!`, `memoize`, concurrent writers): a save is a function from one project value to the next.
- `Time.now` is a parameter. The source reads the clock separately in each milestone query (`current_milestone` is memoized); the model uses one instant for all of them.
- Event, Ticket, Milestone and User documents beyond the fields used here, `include_errors_from`, and ProjectMember's own validations: none of them is part of this model.
- The messages of the presence and uniqueness validators are not modelled: an error is a `Violation` kind and the field it is reported on.
- The controller in app/controllers/application.rb and the login steps in features/authentication/steps/login_steps.rb are not part of this model.
- `Projects.Save`: a member whose function or user does not resolve makes the source's before_validation hook raise `NoMethodError`. The model requires every member to resolve rather than modelling that exception.
- `Common.Blank`: follows the whitespace of Ruby 1.8's `\s` (space, \t, \n, \f, \r); later Ruby and ActiveSupport versions also treat \v and Unicode spaces as blank, which the model does not.
- `Projects.ChangeFunctions`: once the fast check has passed, a key naming no member, or a value naming no stored function, makes the source raise `NoMethodError`. On that path only, the model requires both to resolve rather than modelling the exception; the fast-fail path accepts every input. Keys are identified with member ids as `Id` values, while the source compares `pm.id.to_s == pm_id.to_s`: a hash with two distinct keys sharing a string form (an ObjectId and its string) cannot be expressed, and for such a hash the source's outcome can depend on the order the entries are visited in.
- `Milestones.Sort`: equal dates keep their stored order here. The database leaves their order unspecified, so only the order by date is the source's promise.
- `Milestones.Current`: among future milestones with equal dates, the model picks the first stored one; the database may pick any.
- `Functions.UpdateProjectAdmin`: the uniqueness check follows MongoMapper's rule of looking up the first stored document with the name. MongoMapper itself is not part of this model, so a version that refuses every shared name would differ on registries that already hold duplicate names.
- Ticket tags are a sequence of strings, standing for the `tags.to_a` of each ticket.
- `ProjectLemmas.ChangeFunctionsKeepsAdmin`, `ProjectLemmas.CreateWithAdminMember` and `ProjectLemmas.CreateWithoutCreator` require distinct function ids in the registry (`Functions.DistinctIds`), as MongoDB guarantees for `_id`; the registry model itself allows repeats.

=== FILE: common.dfy ===
/**
 Small vocabulary shared by every module of the model: an optional value
 (Ruby's nil), document identifiers, Ruby's notion of a blank string, and
 the sequence helpers the query methods of the models are built from
 (first match, filter).
 */
module Common {

  /** A value that may be nil. */
  datatype Option<+T> = None | Some(value: T)

  /** Document identifiers (MongoDB object ids) are modelled as naturals. */
  type Id = nat

  /** The characters Ruby 1.8's `\s` matches: space, \t, \n, \f and \r
      (not \v, which `\s` matches only from Ruby 2.2). `blank?` on a string
      is "no character outside this set". */
  predicate IsSpace(c: char) {
    c == ' ' || c == '\t' || c == '\n' || c == '\r' || c == '\U{000C}'
  }

  /** A vertical tab alone is not blank under Ruby 1.8's `\s`. */
  lemma VerticalTabNotBlank()
    ensures !Blank("\U{000B}")
  {
    assert !IsSpace("\U{000B}"[0]);
  }

  /** Ruby's `blank?` on a string: empty, or whitespace only. */
  predicate Blank(s: string) {
    forall i :: 0 <= i < |s| ==> IsSpace(s[i])
  }

  /** Index of the first element satisfying `p`, as Ruby's `detect` and
      MongoDB's `first` (natural order) pick it. */
  function FirstIndex<T>(s: seq<T>, p: T -> bool): (r: Option<nat>)
    ensures r.Some? ==> r.value < |s| && p(s[r.value])
    ensures r.Some? ==> forall j :: 0 <= j < r.value ==> !p(s[j])
    ensures r.None? <==> forall j :: 0 <= j < |s| ==> !p(s[j])
  {
    if |s| == 0 then None
    else if p(s[0]) then Some(0)
    else
      match FirstIndex(s[1..], p)
      case None => None
      case Some(i) => Some(i + 1)
  }

  /** Ruby's `any?` with a block: some element satisfies `p`. */
  function Any<T>(s: seq<T>, p: T -> bool): (r: bool)
    ensures r <==> exists i :: 0 <= i < |s| && p(s[i])
  {
    if |s| == 0 then false
    else if p(s[0]) then true
    else
      var rest := Any(s[1..], p);
      assert forall i :: 0 < i < |s| ==> s[i] == s[1..][i - 1];
      rest
  }

  /** No value occurs twice. */
  predicate NoDuplicates<T(==)>(s: seq<T>) {
    forall i, j :: 0 <= i < j < |s| ==> s[i] != s[j]
  }

  /** Ruby's `uniq`: the first occurrence of every value, in order. `uniq!`
      returns nil exactly when this removes nothing. */
  function Uniq<T(==,!new)>(s: seq<T>): (r: seq<T>)
    ensures forall x :: x in r <==> x in s
    ensures NoDuplicates(r)
    ensures |r| <= |s|
    ensures |r| == |s| <==> NoDuplicates(s)
    decreases |s|
  {
    if |s| == 0 then []
    else
      var init, last := s[..|s| - 1], s[|s| - 1];
      assert s == init + [last];
      var r := Uniq(init);
      assert NoDuplicates(s) <==> NoDuplicates(init) && last !in init;
      if last in r then r else r + [last]
  }

  /** The elements of `s` satisfying `p`, in their original order. */
  function Filter<T(!new)>(s: seq<T>, p: T -> bool): (r: seq<T>)
    ensures forall x :: multiset(r)[x] == if p(x) then multiset(s)[x] else 0
    ensures forall x :: x in r <==> x in s && p(x)
  {
    if |s| == 0 then []
    else
      var rest := Filter(s[1..], p);
      assert s == [s[0]] + s[1..];
      if p(s[0]) then [s[0]] + rest else rest
  }

  /** Filtering distributes over concatenation. */
  lemma {:induction false} FilterAppend<T(!new)>(s: seq<T>, t: seq<T>, p: T -> bool)
    ensures Filter(s + t, p) == Filter(s, p) + Filter(t, p)
    decreases |s|
  {
    if |s| == 0 {
      assert s + t == t;
    } else {
      assert (s + t)[1..] == s[1..] + t;
      FilterAppend(s[1..], t, p);
    }
  }
}

=== FILE: functions.dfy ===
/**
 The Function registry: the global collection of roles a user can hold in a
 project. A function is flagged `project_admin` when holding it makes a
 member an administrator of the project. The key is not required, so a
 function's flag may be nil, which neither the admin nor the non-admin
 lookup matches.
 */
module Functions {
  import opened Common

  datatype Function = Function(id: Id, name: string, projectAdmin: Option<bool>)

  /** The Function collection, in the database's natural order. */
  type Registry = seq<Function>

  /** The `project_admin` key holds exactly `flag` (nil matches neither flag). */
  predicate Flagged(f: Function, flag: bool) {
    f.projectAdmin == Some(flag)
  }

  /** Position `i` holds the first function flagged `flag`. */
  ghost predicate FirstFlagged(reg: Registry, i: int, flag: bool) {
    && 0 <= i < |reg|
    && Flagged(reg[i], flag)
    && forall j :: 0 <= j < i ==> !Flagged(reg[j], flag)
  }

  function FirstWithFlag(reg: Registry, flag: bool): (r: Option<Function>)
    ensures r.None? <==> forall i :: 0 <= i < |reg| ==> !Flagged(reg[i], flag)
    ensures r.Some? ==> exists i :: FirstFlagged(reg, i, flag) && reg[i] == r.value
  {
    match FirstIndex(reg, (f: Function) => Flagged(f, flag))
    case None => None
    case Some(i) =>
      assert FirstFlagged(reg, i, flag);
      Some(reg[i])
  }

  /** `Function.admin`: the first function flagged project_admin, or nil. */
  function Admin(reg: Registry): (r: Option<Function>)
    ensures r.None? <==> forall i :: 0 <= i < |reg| ==> !Flagged(reg[i], true)
    ensures r.Some? ==> exists i :: FirstFlagged(reg, i, true) && reg[i] == r.value
  {
    FirstWithFlag(reg, true)
  }

  /** `Function.not_admin`: the first function whose flag is false, or nil. */
  function NotAdmin(reg: Registry): (r: Option<Function>)
    ensures r.None? <==> forall i :: 0 <= i < |reg| ==> !Flagged(reg[i], false)
    ensures r.Some? ==> exists i :: FirstFlagged(reg, i, false) && reg[i] == r.value
  {
    FirstWithFlag(reg, false)
  }

  /** `Function.find(id)`: the function with that id, or nil. */
  function Find(reg: Registry, id: Id): (r: Option<Function>)
    ensures r.Some? ==> r.value in reg && r.value.id == id
    ensures r.Some? ==> exists i :: 0 <= i < |reg| && reg[i] == r.value
                                    && forall j :: 0 <= j < i ==> reg[j].id != id
    ensures r.None? <==> forall i :: 0 <= i < |reg| ==> reg[i].id != id
  {
    match FirstIndex(reg, (f: Function) => f.id == id)
    case None => None
    case Some(i) => Some(reg[i])
  }

  /** Position `j` holds the first stored document with its name. */
  predicate FirstNamed(reg: Registry, j: int)
    requires 0 <= j < |reg|
  {
    forall k :: 0 <= k < j ==> reg[k].name != reg[j].name
  }

  /** The validations `function.save` runs. The name is required (not
      blank). The uniqueness check looks up the first stored document with
      that name and passes when there is none or it is this document. */
  predicate Savable(reg: Registry, f: Function) {
    && !Blank(f.name)
    && forall j :: 0 <= j < |reg| && reg[j].name == f.name && FirstNamed(reg, j) ==> reg[j].id == f.id
  }

  /** Document ids are distinct, as MongoDB guarantees for `_id`. */
  predicate DistinctIds(reg: Registry) {
    forall i, j :: 0 <= i < j < |reg| ==> reg[i].id != reg[j].id
  }

  /** The state the name constraint keeps the collection in: every function
      has a name, no two share a name, and document ids are distinct. */
  predicate WellFormed(reg: Registry) {
    && (forall i :: 0 <= i < |reg| ==> !Blank(reg[i].name))
    && (forall i, j :: 0 <= i < j < |reg| ==> reg[i].name != reg[j].name)
    && DistinctIds(reg)
  }

  /** A name some document carries has a first carrier. */
  lemma FirstCarrier(reg: Registry, name: string)
    ensures (exists i :: 0 <= i < |reg| && reg[i].name == name) ==>
      exists j :: 0 <= j < |reg| && reg[j].name == name && FirstNamed(reg, j)
  {
    var r := FirstIndex(reg, (g: Function) => g.name == name);
    if r.Some? {
      assert reg[r.value].name == name && FirstNamed(reg, r.value);
    }
  }

  /** Inserting a new function document: refused when validation fails.
      With an id not yet stored, that is exactly when the name is blank or
      already taken. */
  function InsertFunction(reg: Registry, f: Function): (r: Option<Registry>)
    ensures r.Some? <==> Savable(reg, f)
    ensures r.Some? ==> |r.value| == |reg| + 1 && r.value[..|reg|] == reg && r.value[|reg|] == f
    ensures (forall g :: g in reg ==> g.id != f.id) ==>
      (r.Some? <==> !Blank(f.name) && forall g :: g in reg ==> g.name != f.name)
    ensures WellFormed(reg) && (forall g :: g in reg ==> g.id != f.id) && r.Some? ==> WellFormed(r.value)
  {
    FirstCarrier(reg, f.name);
    if Savable(reg, f) then Some(reg + [f]) else None
  }

  /** One iteration of `update_project_admin`: set the flag, then save;
      a function that fails validation is not written. The source validates
      each save against the collection as the earlier iterations left it;
      checking against the original `reg` gives the same answer because a
      rewrite changes neither ids nor names (`SavableUnchanged`). */
  function Rewrite(reg: Registry, f: Function, ids: set<Id>): Function {
    if Savable(reg, f) then f.(projectAdmin := Some(f.id in ids)) else f
  }

  /** `Function.update_project_admin(ids)`: every function is flagged
      project_admin exactly when its id is listed. */
  function UpdateProjectAdmin(reg: Registry, ids: set<Id>): (r: Registry)
    ensures |r| == |reg|
    ensures forall i :: 0 <= i < |reg| ==> r[i].id == reg[i].id && r[i].name == reg[i].name
    ensures forall i :: 0 <= i < |reg| && Savable(reg, reg[i]) ==> Flagged(r[i], reg[i].id in ids)
    ensures forall i :: 0 <= i < |reg| && !Savable(reg, reg[i]) ==> r[i] == reg[i]
    ensures WellFormed(reg) ==> WellFormed(r)
  {
    seq(|reg|, i requires 0 <= i < |reg| => Rewrite(reg, reg[i], ids))
  }

  lemma WellFormedSavable(reg: Registry, i: int)
    requires WellFormed(reg) && 0 <= i < |reg|
    ensures Savable(reg, reg[i])
  {
    forall j | 0 <= j < |reg| && reg[j].name == reg[i].name && FirstNamed(reg, j)
      ensures reg[j].id == reg[i].id
    {
      assert j == i;
    }
  }

  /** On a well-formed registry every save succeeds, so afterwards a
      function is flagged project_admin iff its id was listed, and flagged
      false otherwise (none is left nil). */
  lemma UpdateProjectAdminFlags(reg: Registry, ids: set<Id>)
    requires WellFormed(reg)
    ensures forall i :: 0 <= i < |reg| ==>
      (Flagged(UpdateProjectAdmin(reg, ids)[i], true) <==> reg[i].id in ids)
    ensures forall i :: 0 <= i < |reg| ==>
      (Flagged(UpdateProjectAdmin(reg, ids)[i], false) <==> reg[i].id !in ids)
  {
    forall i | 0 <= i < |reg| {
      WellFormedSavable(reg, i);
    }
  }

  /** Rewriting flags leaves ids and names alone, hence also what validation sees. */
  lemma SavableUnchanged(reg: Registry, r: Registry, i: int)
    requires |r| == |reg| && 0 <= i < |reg|
    requires forall k :: 0 <= k < |reg| ==> r[k].id == reg[k].id && r[k].name == reg[k].name
    ensures Savable(r, r[i]) <==> Savable(reg, reg[i])
  {
    forall j | 0 <= j < |reg|
      ensures FirstNamed(r, j) <==> FirstNamed(reg, j)
    {
    }
  }

  /** Running the rewrite twice with the same list is the same as once. */
  lemma {:induction false} UpdateProjectAdminIdempotent(reg: Registry, ids: set<Id>)
    ensures UpdateProjectAdmin(UpdateProjectAdmin(reg, ids), ids) == UpdateProjectAdmin(reg, ids)
  {
    var once := UpdateProjectAdmin(reg, ids);
    var twice := UpdateProjectAdmin(once, ids);
    forall i | 0 <= i < |reg|
      ensures twice[i] == once[i]
    {
      SavableUnchanged(reg, once, i);
    }
  }

  /** After the rewrite, if some listed id names an existing function, the
      admin lookup answers with a listed function. */
  lemma AdminAfterUpdate(reg: Registry, ids: set<Id>, i: int)
    requires WellFormed(reg)
    requires 0 <= i < |reg| && reg[i].id in ids
    ensures Admin(UpdateProjectAdmin(reg, ids)).Some?
    ensures Admin(UpdateProjectAdmin(reg, ids)).value.id in ids
  {
    var r := UpdateProjectAdmin(reg, ids);
    WellFormedSavable(reg, i);
    assert Flagged(r[i], true);
    var a := Admin(r);
    var k :| FirstFlagged(r, k, true) && r[k] == a.value;
    WellFormedSavable(reg, k);
    assert Flagged(r[k], reg[k].id in ids);
  }

  /** After the rewrite, if some function is not listed, the non-admin
      lookup answers with an unlisted function. */
  lemma NotAdminAfterUpdate(reg: Registry, ids: set<Id>, i: int)
    requires WellFormed(reg)
    requires 0 <= i < |reg| && reg[i].id !in ids
    ensures NotAdmin(UpdateProjectAdmin(reg, ids)).Some?
    ensures NotAdmin(UpdateProjectAdmin(reg, ids)).value.id !in ids
  {
    var r := UpdateProjectAdmin(reg, ids);
    WellFormedSavable(reg, i);
    assert Flagged(r[i], false);
    var a := NotAdmin(r);
    var k :| FirstFlagged(r, k, false) && r[k] == a.value;
    WellFormedSavable(reg, k);
    assert Flagged(r[k], reg[k].id in ids);
  }

  /** With two functions named alike, the first stored one passes the
      uniqueness check and gets its flag; the second fails it and keeps a
      nil flag. Listing the first makes it `Function.admin`. */
  lemma DuplicateNameFirstWins(reg: Registry)
    requires reg == [Function(1, "x", None), Function(2, "x", None)]
    ensures UpdateProjectAdmin(reg, {1}) == [Function(1, "x", Some(true)), Function(2, "x", None)]
    ensures Admin(UpdateProjectAdmin(reg, {1})) == Some(Function(1, "x", Some(true)))
  {
    assert !Blank("x") by { assert !IsSpace("x"[0]); }
    assert FirstNamed(reg, 0);
    assert reg[0].name == reg[1].name;
    assert Savable(reg, reg[0]);
    assert !Savable(reg, reg[1]);
    var r := UpdateProjectAdmin(reg, {1});
    assert r[0] == Function(1, "x", Some(true));
    assert FirstFlagged(r, 0, true);
  }
}

=== FILE: members.dfy ===
/**
 Project members: the ProjectMember documents embedded in a project. A member
 references a user and a function, and carries copies of the user's login
 and of the function's name and admin flag that the project refreshes
 before every validation.
 */
module Members {
  import opened Common
  import opened Functions

  /** A user account as the project sees it. */
  datatype User = User(id: Id, login: string)

  /** The logins of the stored users, by user id: what `member.user` resolves through. */
  type Directory = map<Id, string>

  /** A ProjectMember. The copied fields are nil until first filled in. */
  datatype Member = Member(
    id: Id,
    userId: Id,
    userName: Option<string>,
    functionId: Option<Id>,
    functionName: Option<string>,
    projectAdmin: Option<bool>)

  /** `member.project_admin?`: a nil flag reads as false. */
  predicate IsAdmin(m: Member) {
    m.projectAdmin == Some(true)
  }

  /** Both references of the member resolve, so refreshing it does not
      dereference nil. */
  predicate Resolves(m: Member, reg: Registry, users: Directory) {
    m.functionId.Some? && Find(reg, m.functionId.value).Some? && m.userId in users
  }

  /** The two before_validation refreshes applied to one member: the function
      name and admin flag are copied from the referenced function, the user
      name from the referenced user's login; nothing else changes. */
  function Refresh(m: Member, reg: Registry, users: Directory): (r: Member)
    requires Resolves(m, reg, users)
    ensures r.id == m.id && r.userId == m.userId && r.functionId == m.functionId
    ensures var f := Find(reg, m.functionId.value).value;
      f in reg && r.functionName == Some(f.name) && r.projectAdmin == f.projectAdmin
    ensures r.userName == Some(users[m.userId])
    ensures Resolves(r, reg, users)
  {
    var f := Find(reg, m.functionId.value).value;
    m.(functionName := Some(f.name), projectAdmin := f.projectAdmin, userName := Some(users[m.userId]))
  }

  /** A refreshed member is admin exactly when the function it references is
      flagged project_admin: the stored copy of the flag plays no part. */
  lemma RefreshAdmin(m: Member, reg: Registry, users: Directory)
    requires Resolves(m, reg, users)
    ensures IsAdmin(Refresh(m, reg, users)) <==> Flagged(Find(reg, m.functionId.value).value, true)
  {
  }
}

=== FILE: milestones.dfy ===
/**
 Milestone classification. Given the project's milestones in stored order
 and the current time `now`, the project names one current milestone and
 sorts the others into outdated, upcoming and undated buckets. Dates are
 integer timestamps.
 */
module Milestones {
  import opened Common

  datatype Milestone = Milestone(id: Id, expectedAt: Option<int>)

  /** Matches the query `expected_at > now` (a nil date matches no comparison). */
  predicate After(m: Milestone, now: int) {
    m.expectedAt.Some? && m.expectedAt.value > now
  }

  /** Matches the query `expected_at < now`. */
  predicate Before(m: Milestone, now: int) {
    m.expectedAt.Some? && m.expectedAt.value < now
  }

  /** The sort key of a dated milestone. */
  function Date(m: Milestone): int {
    match m.expectedAt
    case Some(d) => d
    case None => 0
  }

  /** Position of the future milestone with the earliest date; among equal
      dates the one stored first. */
  function EarliestFuture(ms: seq<Milestone>, now: int): (r: Option<nat>)
    ensures r.None? <==> forall j :: 0 <= j < |ms| ==> !After(ms[j], now)
    ensures r.Some? ==> r.value < |ms| && After(ms[r.value], now)
    ensures r.Some? ==> forall j :: 0 <= j < |ms| && After(ms[j], now) ==> Date(ms[r.value]) <= Date(ms[j])
    ensures r.Some? ==> forall j :: 0 <= j < r.value && After(ms[j], now) ==> Date(ms[r.value]) < Date(ms[j])
  {
    if |ms| == 0 then None
    else
      var rest := EarliestFuture(ms[1..], now);
      if !After(ms[0], now) then
        (match rest case None => None case Some(i) => Some(i + 1))
      else if rest.Some? && Date(ms[rest.value + 1]) < Date(ms[0]) then Some(rest.value + 1)
      else Some(0)
  }

  /** `current_milestone`: the earliest future milestone or, when none lies
      in the future, the first stored one; nil only without milestones. */
  function Current(ms: seq<Milestone>, now: int): (r: Option<Milestone>)
    ensures r.None? <==> |ms| == 0
    ensures r.Some? ==> r.value in ms
    ensures (exists j :: 0 <= j < |ms| && After(ms[j], now)) ==> r.Some? && After(r.value, now)
    ensures r.Some? && After(r.value, now) ==>
      forall m :: m in ms && After(m, now) ==> Date(r.value) <= Date(m)
    ensures |ms| > 0 && (forall j :: 0 <= j < |ms| ==> !After(ms[j], now)) ==> r == Some(ms[0])
  {
    match EarliestFuture(ms, now)
    case Some(i) => Some(ms[i])
    case None => if |ms| == 0 then None else Some(ms[0])
  }

  /** The query condition `_id != current id`. */
  predicate NotCurrent(m: Milestone, current: Option<Milestone>) {
    current.None? || m.id != current.value.id
  }

  datatype Direction = Ascending | Descending

  predicate InOrder(a: int, b: int, dir: Direction) {
    if dir == Ascending then a <= b else a >= b
  }

  predicate Sorted(s: seq<Milestone>, dir: Direction) {
    forall i, j :: 0 <= i < j < |s| ==> InOrder(Date(s[i]), Date(s[j]), dir)
  }

  function Insert(m: Milestone, s: seq<Milestone>, dir: Direction): (r: seq<Milestone>)
    requires Sorted(s, dir)
    ensures Sorted(r, dir)
    ensures multiset(r) == multiset(s) + multiset{m}
  {
    if |s| == 0 || InOrder(Date(m), Date(s[0]), dir) then
      assert forall j :: 0 <= j < |s| ==> InOrder(Date(s[0]), Date(s[j]), dir);
      [m] + s
    else
      var rest := Insert(m, s[1..], dir);
      assert s == [s[0]] + s[1..];
      InsertHead(m, s, rest, dir);
      [s[0]] + rest
  }

  /** The head of a sorted sequence may precede anything inserted after it. */
  lemma InsertHead(m: Milestone, s: seq<Milestone>, rest: seq<Milestone>, dir: Direction)
    requires Sorted(s, dir) && |s| > 0 && !InOrder(Date(m), Date(s[0]), dir)
    requires Sorted(rest, dir) && multiset(rest) == multiset(s[1..]) + multiset{m}
    ensures Sorted([s[0]] + rest, dir)
  {
    var r := [s[0]] + rest;
    forall j | 0 < j < |r|
      ensures InOrder(Date(s[0]), Date(r[j]), dir)
    {
      var x := r[j];
      assert x == rest[j - 1];
      assert x in multiset(rest);
      if x != m {
        assert x in multiset(s[1..]);
        var k :| 0 <= k < |s[1..]| && s[1..][k] == x;
        assert s[k + 1] == x;
      }
    }
  }

  /** Ordering by date (the `:order` option). Equal dates keep their
      relative stored order here; the database leaves them unspecified. */
  function Sort(s: seq<Milestone>, dir: Direction): (r: seq<Milestone>)
    ensures Sorted(r, dir)
    ensures multiset(r) == multiset(s)
  {
    if |s| == 0 then []
    else
      assert s == [s[0]] + s[1..];
      Insert(s[0], Sort(s[1..], dir), dir)
  }

  /** `outdated_milestones`: the non-current milestones dated before `now`,
      latest first. */
  function Outdated(ms: seq<Milestone>, now: int): (r: seq<Milestone>)
    ensures forall m :: m in r <==> m in ms && Before(m, now) && NotCurrent(m, Current(ms, now))
    ensures forall m :: multiset(r)[m] == if Before(m, now) && NotCurrent(m, Current(ms, now)) then multiset(ms)[m] else 0
    ensures Sorted(r, Descending)
  {
    var cur := Current(ms, now);
    Sort(Filter(ms, (m: Milestone) => Before(m, now) && NotCurrent(m, cur)), Descending)
  }

  /** `upcoming_milestones`: the non-current milestones dated after `now`,
      earliest first. */
  function Upcoming(ms: seq<Milestone>, now: int): (r: seq<Milestone>)
    ensures forall m :: m in r <==> m in ms && After(m, now) && NotCurrent(m, Current(ms, now))
    ensures forall m :: multiset(r)[m] == if After(m, now) && NotCurrent(m, Current(ms, now)) then multiset(ms)[m] else 0
    ensures Sorted(r, Ascending)
  {
    var cur := Current(ms, now);
    Sort(Filter(ms, (m: Milestone) => After(m, now) && NotCurrent(m, cur)), Ascending)
  }

  /** `no_date_milestones`: the non-current milestones without a date, in
      stored order. */
  function NoDate(ms: seq<Milestone>, now: int): (r: seq<Milestone>)
    ensures forall m :: m in r <==> m in ms && m.expectedAt.None? && NotCurrent(m, Current(ms, now))
    ensures forall m :: multiset(r)[m] == if m.expectedAt.None? && NotCurrent(m, Current(ms, now)) then multiset(ms)[m] else 0
  {
    var cur := Current(ms, now);
    Filter(ms, (m: Milestone) => m.expectedAt.None? && NotCurrent(m, cur))
  }

  /** The current milestone is in no bucket, the buckets share no milestone,
      and a non-current milestone dated exactly `now` lands in none. */
  lemma BucketsDisjoint(ms: seq<Milestone>, now: int)
    ensures Current(ms, now).Some? ==>
      var c := Current(ms, now).value;
      c !in Outdated(ms, now) && c !in Upcoming(ms, now) && c !in NoDate(ms, now)
    ensures forall m :: m in Outdated(ms, now) ==> m !in Upcoming(ms, now) && m !in NoDate(ms, now)
    ensures forall m :: m in Upcoming(ms, now) ==> m !in NoDate(ms, now)
    ensures forall m :: m in ms && m.expectedAt == Some(now) ==>
      m !in Outdated(ms, now) && m !in Upcoming(ms, now) && m !in NoDate(ms, now)
  {
  }

  /** Every milestone is current or in exactly the bucket its date selects,
      unless it is dated exactly `now` or shares the current milestone's id. */
  lemma BucketsCover(ms: seq<Milestone>, now: int, m: Milestone)
    requires m in ms && NotCurrent(m, Current(ms, now))
    ensures m.expectedAt.None? ==> m in NoDate(ms, now)
    ensures m.expectedAt.Some? && m.expectedAt.value < now ==> m in Outdated(ms, now)
    ensures m.expectedAt.Some? && m.expectedAt.value > now ==> m in Upcoming(ms, now)
  {
  }

  /** Dates two and one before `now`, one and two after. */
  function Example(now: int): seq<Milestone> {
    [Milestone(1, Some(now - 2)), Milestone(2, Some(now - 1)),
     Milestone(3, Some(now + 1)), Milestone(4, Some(now + 2))]
  }

  /** In the example the nearest future milestone is current. */
  lemma ExampleCurrent(now: int)
    ensures Current(Example(now), now) == Some(Milestone(3, Some(now + 1)))
  {
    var ms := Example(now);
    assert After(ms[2], now);
    var c := Current(ms, now);
    assert c.value in ms;
  }

  /** In the example the other future milestone is the only upcoming one. */
  lemma ExampleUpcoming(now: int)
    ensures Upcoming(Example(now), now) == [Milestone(4, Some(now + 2))]
  {
    var ms := Example(now);
    ExampleCurrent(now);
    var u := Upcoming(ms, now);
    assert multiset(u) == multiset{ms[3]} by {
      forall m ensures multiset(u)[m] == multiset{ms[3]}[m] {
        if m == ms[3] {
          assert multiset(ms)[m] == 1;
        }
      }
    }
    SortedSingleton(u, ms[3]);
  }

  /** In the example both past milestones are outdated, latest first. */
  lemma ExampleOutdated(now: int)
    ensures Outdated(Example(now), now) == [Milestone(2, Some(now - 1)), Milestone(1, Some(now - 2))]
  {
    var a, b := Milestone(1, Some(now - 2)), Milestone(2, Some(now - 1));
    var o := Outdated(Example(now), now);
    forall m
      ensures multiset(o)[m] == multiset{b, a}[m]
    {
      ExampleOutdatedCount(now, m);
    }
    assert multiset(o) == multiset{b, a};
    SortedPair(o, b, a, Descending);
  }

  lemma ExampleOutdatedCount(now: int, m: Milestone)
    ensures multiset(Outdated(Example(now), now))[m]
         == multiset{Milestone(2, Some(now - 1)), Milestone(1, Some(now - 2))}[m]
  {
    var ms := Example(now);
    var a, b := Milestone(1, Some(now - 2)), Milestone(2, Some(now - 1));
    var c, d := Milestone(3, Some(now + 1)), Milestone(4, Some(now + 2));
    ExampleCurrent(now);
    var selected := Before(m, now) && NotCurrent(m, Some(c));
    assert multiset(Outdated(ms, now))[m] == if selected then multiset(ms)[m] else 0;
    assert ms == [a, b, c, d];
    assert multiset(ms) == multiset{a, b, c, d};
    if m == a || m == b {
      assert selected;
    } else if m == c || m == d {
      assert !selected;
    } else {
      assert multiset(ms)[m] == 0;
    }
  }

  /** In the example no milestone is undated. */
  lemma ExampleNoDate(now: int)
    ensures NoDate(Example(now), now) == []
  {
    var ms := Example(now);
    var n := NoDate(ms, now);
    assert forall m :: m in ms ==> m.expectedAt.Some?;
  }

  /** A sequence whose multiset is one milestone is that milestone. */
  lemma SortedSingleton(s: seq<Milestone>, m: Milestone)
    requires multiset(s) == multiset{m}
    ensures s == [m]
  {
    assert |s| == 1;
    assert s[0] in multiset(s);
  }

  /** A sorted sequence of two milestones with distinct dates is determined
      by its multiset. */
  lemma SortedPair(s: seq<Milestone>, a: Milestone, b: Milestone, dir: Direction)
    requires multiset(s) == multiset{a, b} && Sorted(s, dir)
    requires InOrder(Date(a), Date(b), dir) && Date(a) != Date(b)
    ensures s == [a, b]
  {
    assert |s| == 2;
    assert s[0] in multiset(s) && s[1] in multiset(s);
  }
}

=== FILE: project_lemmas.dfy ===
/**
 Properties of the Project aggregate that relate several operations: what
 validity means once the members are refreshed, how membership changes
 interact with validation, creation and its audit event, and the ticket
 counter across successive saves.
 */
module ProjectLemmas {
  import opened Common
  import opened Functions
  import opened Members
  import opened Tags
  import opened Projects

  // ---------------------------------------------------------------------
  // Refresh and validity

  /** Refreshing twice is refreshing once. */
  lemma NormaliseIdempotent(p: Project, env: Env)
    requires Resolvable(p, env)
    ensures Normalise(Normalise(p, env), env) == Normalise(p, env)
  {
    var q := Normalise(p, env);
    var qq := Normalise(q, env);
    forall i | 0 <= i < |p.members|
      ensures qq.members[i] == q.members[i]
    {
    }
  }

  /** The copied fields a member carries before the save play no part: two
      projects whose members agree on id, user and function refresh to the
      same members. */
  lemma NormaliseIgnoresCopies(p: Project, p': Project, env: Env)
    requires Resolvable(p, env) && Resolvable(p', env)
    requires |p'.members| == |p.members|
    requires forall i :: 0 <= i < |p.members| ==>
      && p'.members[i].id == p.members[i].id
      && p'.members[i].userId == p.members[i].userId
      && p'.members[i].functionId == p.members[i].functionId
    ensures Normalise(p', env).members == Normalise(p, env).members
    ensures p'.(members := p.members) == p ==> Normalise(p', env) == Normalise(p, env)
  {
    var q, q' := Normalise(p, env), Normalise(p', env);
    forall i | 0 <= i < |p.members|
      ensures q'.members[i] == q.members[i]
    {
    }
  }

  /** What a save leaves in memory is the refreshed project, apart from
      the persisted flag and the events. */
  lemma SaveRefreshes(p: Project, env: Env)
    requires Resolvable(p, env)
    ensures Save(p, env).project.members == Normalise(p, env).members
    ensures Save(p, env).project.name == p.name
    ensures Save(p, env).project.numTicket == p.numTicket
    ensures Save(p, env).project.tickets == p.tickets
  {
    var q := Save(p, env).project;
    assert q.(events := p.events, persisted := p.persisted) == Normalise(p, env);
  }

  /** A project is valid exactly when its name is present and not another
      project's, some member holds a function flagged project_admin, and no
      user is a member twice. */
  lemma ValidIff(p: Project, env: Env)
    requires Resolvable(p, env)
    ensures Valid(p, env) <==>
      && NamePresent(p)
      && !NameClashes(p, env.otherNames)
      && (exists i :: 0 <= i < |p.members| && Flagged(FunctionOf(p.members[i], env.registry), true))
      && DistinctUsers(p.members)
  {
    var q := Normalise(p, env);
    var vs := Violations(q, env.otherNames);
    assert HasAdmin(q.members) <==>
      exists i :: 0 <= i < |p.members| && Flagged(FunctionOf(p.members[i], env.registry), true)
    by {
      if HasAdmin(q.members) {
        var i :| 0 <= i < |q.members| && IsAdmin(q.members[i]);
        assert Flagged(FunctionOf(p.members[i], env.registry), true);
      }
      if exists i :: 0 <= i < |p.members| && Flagged(FunctionOf(p.members[i], env.registry), true) {
        var i :| 0 <= i < |p.members| && Flagged(FunctionOf(p.members[i], env.registry), true);
        assert IsAdmin(q.members[i]);
      }
    }
    assert DistinctUsers(q.members) <==> DistinctUsers(p.members) by {
      assert forall i :: 0 <= i < |p.members| ==> q.members[i].userId == p.members[i].userId;
    }
    if vs != [] {
      assert vs[0] in vs;
    }
  }

  /** A project without members is invalid, with the 'need an admin' error
      on `project_members`. */
  lemma NoMembersInvalid(p: Project, env: Env)
    requires p.members == []
    ensures Resolvable(p, env)
    ensures !Valid(p, env)
    ensures NeedAnAdmin in Violations(Normalise(p, env), env.otherNames)
    ensures FieldOf(NeedAnAdmin) == ProjectMembersField
  {
  }

  /** A project none of whose members holds an admin-flagged function is
      invalid, whatever flag the members themselves carry. */
  lemma NoAdminMemberInvalid(p: Project, env: Env)
    requires Resolvable(p, env)
    requires forall i :: 0 <= i < |p.members| ==> !Flagged(FunctionOf(p.members[i], env.registry), true)
    ensures !Valid(p, env)
    ensures NeedAnAdmin in Violations(Normalise(p, env), env.otherNames)
  {
  }

  /** A project without a name, or with a blank one, is invalid with an
      error on `name`. */
  lemma NoNameInvalid(p: Project, env: Env)
    requires Resolvable(p, env)
    requires p.name.None? || Blank(p.name.value)
    ensures !Valid(p, env)
    ensures NameMissing in Violations(Normalise(p, env), env.otherNames)
    ensures FieldOf(NameMissing) == NameField
  {
  }

  /** A project otherwise valid whose name another project already uses
      fails with exactly one error, reported on `name`. */
  lemma NameClashSingleError(p: Project, env: Env)
    requires Resolvable(p, env)
    requires NamePresent(p) && NameClashes(p, env.otherNames) && DistinctUsers(p.members)
    requires exists i :: 0 <= i < |p.members| && Flagged(FunctionOf(p.members[i], env.registry), true)
    ensures Violations(Normalise(p, env), env.otherNames) == [NameTaken]
    ensures FieldOf(NameTaken) == NameField
  {
    var q := Normalise(p, env);
    var i :| 0 <= i < |p.members| && Flagged(FunctionOf(p.members[i], env.registry), true);
    assert IsAdmin(q.members[i]);
    assert forall j :: 0 <= j < |p.members| ==> q.members[j].userId == p.members[j].userId;
  }

  /** Saving a valid stored project succeeds and leaves a project that is
      still resolvable and valid, with the same counter and tickets. */
  lemma SaveKeepsValid(p: Project, env: Env)
    requires Resolvable(p, env) && Valid(p, env) && p.persisted
    ensures Save(p, env).Saved?
    ensures Resolvable(Save(p, env).project, env)
    ensures Valid(Save(p, env).project, env)
    ensures Save(p, env).project.persisted
    ensures Save(p, env).project.numTicket == p.numTicket
    ensures Save(p, env).project.tickets == p.tickets
  {
    var q := Save(p, env).project;
    var n := Normalise(p, env);
    SaveRefreshes(p, env);
    NormaliseIgnoresCopies(n, q, env);
    NormaliseIdempotent(p, env);
    var nq := Normalise(q, env);
    assert nq.members == n.members && nq.name == n.name;
    assert Violations(nq, env.otherNames) == Violations(n, env.otherNames);
  }

  /** Renaming a valid stored project to a free name and saving it with
      an updater set succeeds and records exactly one `updated` event by
      that user. */
  lemma RenameWithUpdater(p: Project, env: Env, newName: string, u: Id)
    requires Resolvable(p, env) && Valid(p, env) && p.persisted
    requires !Blank(newName) && newName !in env.otherNames
    ensures Resolvable(p.(name := Some(newName), userUpdate := Some(u)), env)
    ensures var r := Save(p.(name := Some(newName), userUpdate := Some(u)), env);
      && r.Saved?
      && r.project.name == Some(newName)
      && r.project.events == p.events + [Event(Updated, u)]
  {
    var p' := p.(name := Some(newName), userUpdate := Some(u));
    assert p'.members == p.members;
    var n, n' := Normalise(p, env), Normalise(p', env);
    assert n'.members == n.members;
    assert Violations(n', env.otherNames) == [];
    SaveRefreshes(p', env);
  }

  /** The errors the validation reports are those the source's own
      helpers compute: `have_one_admin` with `any?` and
      `only_once_each_member` with `uniq!`. */
  lemma ViolationsFromSource(p: Project, otherNames: set<string>)
    ensures Violations(p, otherNames) ==
      (if NameClashes(p, otherNames) then [NameTaken] else [])
      + (if HaveOneAdmin(p.members) then [] else [NeedAnAdmin])
      + (if OnlyOnceEachMember(p.members) then [] else [SameMembers])
      + (if NamePresent(p) then [] else [NameMissing])
  {
  }

  // ---------------------------------------------------------------------
  // Ticket numbering

  /** Issuing a number leaves membership and name, hence validity, alone. */
  lemma IssueKeepsValid(p: Project, env: Env)
    requires Resolvable(p, env) && Valid(p, env)
    ensures Resolvable(IssueNumber(p).1, env) && Valid(IssueNumber(p).1, env)
    ensures IssueNumber(p).1.persisted == p.persisted
  {
    var q := IssueNumber(p).1;
    assert q.members == p.members;
    assert Normalise(q, env) == Normalise(p, env).(numTicket := q.numTicket);
  }

  /** On a stored valid project whose counter is nil, three successive calls
      to `new_num_ticket` hand out 1, 2 and 3 and leave the counter at 4. */
  lemma {:induction false} TicketNumbersFromFresh(p: Project, env: Env)
    requires Resolvable(p, env) && Valid(p, env) && p.persisted && p.numTicket.None?
    ensures
      var (n1, o1) := NewNumTicket(p, env);
      && n1 == 1 && o1.Saved? && Resolvable(o1.project, env)
      && var (n2, o2) := NewNumTicket(o1.project, env);
      && n2 == 2 && o2.Saved? && Resolvable(o2.project, env)
      && var (n3, o3) := NewNumTicket(o2.project, env);
      && n3 == 3 && o3.Saved? && o3.project.numTicket == Some(4)
  {
    var p1 := NextTicket(p, env, 1);
    var p2 := NextTicket(p1, env, 2);
    var p3 := NextTicket(p2, env, 3);
  }

  /** One step of the counter on a stored valid project. */
  lemma NextTicket(p: Project, env: Env, expected: int) returns (next: Project)
    requires Resolvable(p, env) && Valid(p, env) && p.persisted
    requires p.numTicket == Some(expected) || (p.numTicket.None? && expected == 1)
    ensures NewNumTicket(p, env).0 == expected && NewNumTicket(p, env).1.Saved?
    ensures next == NewNumTicket(p, env).1.project
    ensures Resolvable(next, env) && Valid(next, env) && next.persisted
    ensures next.numTicket == Some(expected + 1)
  {
    IssueKeepsValid(p, env);
    SaveKeepsValid(IssueNumber(p).1, env);
    next := NewNumTicket(p, env).1.project;
  }

  // ---------------------------------------------------------------------
  // Tag counts

  /** Recomputing the tag counts again, with the tickets unchanged, gives
      the same map. */
  lemma UpdateTagCountsIdempotent(p: Project, env: Env)
    requires Resolvable(p, env)
    ensures UpdateTagCounts(UpdateTagCounts(p, env).project, env).project.tagCounts
         == UpdateTagCounts(p, env).project.tagCounts
  {
    var once := UpdateTagCounts(p, env).project;
    SaveRefreshes(p.(tagCounts := TagCounts(p.tickets)), env);
    var twice := UpdateTagCounts(once, env).project;
    assert twice.tagCounts.Keys == once.tagCounts.Keys;
  }

  // ---------------------------------------------------------------------
  // Membership

  /** After `add_member`, exactly the previous members and the added user
      are members. */
  lemma AddMemberHasMember(p: Project, user: User, f: Function, memberId: Id, other: Id)
    ensures HasMember(AddMember(p, user, f, memberId), other) <==> HasMember(p, other) || other == user.id
  {
    var r := AddMember(p, user, f, memberId);
    if !HasMember(p, user.id) && HasMember(r, other) && other != user.id {
      var i :| 0 <= i < |r.members| && r.members[i].userId == other;
      assert i < |p.members| && p.members[i] == r.members[i];
    }
    if !HasMember(p, user.id) && HasMember(p, other) {
      var i :| 0 <= i < |p.members| && p.members[i].userId == other;
      assert r.members[i] == p.members[i];
    }
  }

  /** `add_member` keeps "no user twice" true. */
  lemma AddMemberKeepsDistinctUsers(p: Project, user: User, f: Function, memberId: Id)
    requires DistinctUsers(p.members)
    ensures DistinctUsers(AddMember(p, user, f, memberId).members)
  {
    var r := AddMember(p, user, f, memberId);
    if !HasMember(p, user.id) {
      forall i, j | 0 <= i < j < |r.members|
        ensures r.members[i].userId != r.members[j].userId
      {
        assert r.members[i] == p.members[i];
        if j == |p.members| {
          assert p.members[i].userId != user.id;
        } else {
          assert r.members[j] == p.members[j];
        }
      }
    }
  }

  /** Adding a user who is already a member changes nothing, whatever
      function is asked for. */
  lemma AddMemberTwice(p: Project, user: User, f: Function, g: Function, id1: Id, id2: Id)
    ensures AddMember(AddMember(p, user, f, id1), user, g, id2) == AddMember(p, user, f, id1)
  {
  }

  /** A user added to a project without them holds exactly one membership
      record. */
  lemma AddMemberOnce(p: Project, user: User, f: Function, memberId: Id)
    requires !HasMember(p, user.id)
    ensures MembershipCount(AddMember(p, user, f, memberId), user.id) == 1
  {
    var r := AddMember(p, user, f, memberId);
    var m := r.members[|p.members|];
    assert r.members == p.members + [m];
    var same := SameUser(user.id);
    FilterAppend(p.members, [m], same);
    NoneSameUser(p.members, user.id);
    assert Filter([m], same) == [m] by {
      assert [m][1..] == [];
    }
  }

  /** No record for a user, nothing to filter for them. */
  lemma NoneSameUser(ms: seq<Member>, userId: Id)
    requires forall i :: 0 <= i < |ms| ==> ms[i].userId != userId
    ensures Filter(ms, SameUser(userId)) == []
  {
  }

  // ---------------------------------------------------------------------
  // Function reassignment

  /** After a reassignment that passed the fast check, whatever order the
      hash is walked in, the change saves the reassigned project, and the
      save's outcome holds every member with its id, user and (possibly new)
      function id: the member `detect` finds for a key gets the mapped
      function, every other member keeps its function. */
  lemma ChangeFunctionsApplies(p: Project, a: map<Id, Id>, order: seq<(Id, Id)>, env: Env)
    requires Enumerates(order, a)
    requires forall k :: k in a ==> Detects(p.members, k)
    requires forall k :: k in a ==> Find(env.registry, a[k]).Some?
    requires Resolvable(p.(members := Reassign(p.members, a)), env)
    requires AssignsAdmin(env.registry, a)
    ensures var pr := p.(members := Reassign(p.members, a));
      ChangeFunctions(p, a, order, env) == Attempted(Save(pr, env))
    ensures var q := Save(p.(members := Reassign(p.members, a)), env).project;
      && |q.members| == |p.members|
      && forall i :: 0 <= i < |p.members| ==>
        && q.members[i].id == p.members[i].id
        && q.members[i].userId == p.members[i].userId
        && q.members[i].functionId ==
             (if p.members[i].id in a && FirstWithId(p.members, i) then Some(a[p.members[i].id])
              else p.members[i].functionId)
  {
    var pr := p.(members := Reassign(p.members, a));
    assert ChangeFunctions(p, a, order, env) == Attempted(Save(pr, env));
    ReassignedMembers(pr, env);
    var q := Save(pr, env).project;
    forall i | 0 <= i < |p.members|
      ensures q.members[i].functionId ==
             (if p.members[i].id in a && FirstWithId(p.members, i) then Some(a[p.members[i].id])
              else p.members[i].functionId)
    {
      assert q.members[i].functionId == pr.members[i].functionId;
    }
  }

  /** The save's outcome keeps each member's id, user and function id. */
  lemma ReassignedMembers(p: Project, env: Env)
    requires Resolvable(p, env)
    ensures var q := Save(p, env).project;
      && |q.members| == |p.members|
      && forall i :: 0 <= i < |p.members| ==>
        q.members[i].id == p.members[i].id && q.members[i].userId == p.members[i].userId
        && q.members[i].functionId == p.members[i].functionId
  {
    SaveRefreshes(p, env);
  }

  /** The first member carrying a given id. */
  lemma FirstMemberWithId(ms: seq<Member>, k: Id) returns (i: int)
    requires exists j :: 0 <= j < |ms| && ms[j].id == k
    ensures 0 <= i < |ms| && ms[i].id == k && FirstWithId(ms, i)
  {
    var j :| 0 <= j < |ms| && ms[j].id == k;
    var r := FirstIndex(ms, (m: Member) => m.id == k);
    i := r.value;
  }

  /** With document ids distinct in the registry, passing the fast check
      already guarantees the save-time admin validation: the member given
      the admin-flagged function becomes an admin, so the save never
      reports 'need an admin'. */
  lemma ChangeFunctionsKeepsAdmin(p: Project, a: map<Id, Id>, order: seq<(Id, Id)>, env: Env)
    requires Enumerates(order, a)
    requires forall k :: k in a ==> Detects(p.members, k)
    requires forall k :: k in a ==> Find(env.registry, a[k]).Some?
    requires Resolvable(p.(members := Reassign(p.members, a)), env)
    requires DistinctIds(env.registry)
    requires AssignsAdmin(env.registry, a)
    ensures ChangeFunctions(p, a, order, env).Attempted?
    ensures HasAdmin(ChangeFunctions(p, a, order, env).outcome.project.members)
    ensures ChangeFunctions(p, a, order, env).outcome.Rejected? ==>
      NeedAnAdmin !in ChangeFunctions(p, a, order, env).outcome.violations
  {
    var reg := env.registry;
    var f :| f in reg && Flagged(f, true) && f.id in a.Values;
    var k :| k in a && a[k] == f.id;
    var i := FirstMemberWithId(p.members, k);
    var pr := p.(members := Reassign(p.members, a));
    assert pr.members[i].functionId == Some(f.id);
    HoldsAdminFunction(pr, env, i, f);
    SaveRefreshes(pr, env);
  }

  /** A member referencing an admin-flagged function is an admin once
      refreshed, provided document ids are distinct. */
  lemma HoldsAdminFunction(p: Project, env: Env, i: int, f: Function)
    requires Resolvable(p, env) && DistinctIds(env.registry)
    requires f in env.registry && Flagged(f, true)
    requires 0 <= i < |p.members| && p.members[i].functionId == Some(f.id)
    ensures IsAdmin(Normalise(p, env).members[i])
    ensures HasAdmin(Normalise(p, env).members)
  {
    FindStored(env.registry, f);
  }

  /** `Function.find` returns a stored function by its id once document
      ids are distinct. */
  lemma FindStored(reg: Registry, f: Function)
    requires DistinctIds(reg) && f in reg
    ensures Find(reg, f.id) == Some(f)
  {
    var i :| 0 <= i < |reg| && reg[i] == f;
    var found := Find(reg, f.id);
    assert found.Some? by { assert reg[i].id == f.id; }
    var j :| 0 <= j < |reg| && reg[j] == found.value;
    assert reg[j].id == reg[i].id;
  }

  /** The save-time validation stays authoritative: when, after the
      reassignment, no member holds an admin-flagged function, the change
      is saved nowhere and reports false with the 'need an admin' error. */
  lemma ChangeFunctionsLastAdmin(p: Project, a: map<Id, Id>, order: seq<(Id, Id)>, env: Env)
    requires Enumerates(order, a)
    requires AssignsAdmin(env.registry, a) ==>
      forall k :: k in a ==> Detects(p.members, k)
    requires AssignsAdmin(env.registry, a) ==>
      forall k :: k in a ==> Find(env.registry, a[k]).Some?
    requires AssignsAdmin(env.registry, a) ==>
      && Resolvable(p.(members := Reassign(p.members, a)), env)
      && var ms := Reassign(p.members, a);
         forall i :: 0 <= i < |ms| ==> !Flagged(FunctionOf(ms[i], env.registry), true)
    ensures !Succeeded(ChangeFunctions(p, a, order, env))
    ensures ChangeFunctions(p, a, order, env).Attempted? ==>
      && ChangeFunctions(p, a, order, env).outcome.Rejected?
      && NeedAnAdmin in ChangeFunctions(p, a, order, env).outcome.violations
  {
    if AssignsAdmin(env.registry, a) {
      NoAdminMemberInvalid(p.(members := Reassign(p.members, a)), env);
    }
  }

  /** The fast check runs before anything is dereferenced: an empty
      assignment returns false and leaves the project as it was, whatever
      its members reference. */
  lemma ChangeFunctionsEmpty(p: Project, env: Env)
    ensures ChangeFunctions(p, map[], [], env) == NoAdminAssigned(p)
    ensures !Succeeded(ChangeFunctions(p, map[], [], env))
  {
  }

  /** A key naming no member is harmless when no admin function is
      assigned: the change returns false with the project untouched. */
  lemma ChangeFunctionsUnknownMember(p: Project, env: Env, k: Id, fid: Id, order: seq<(Id, Id)>)
    requires Enumerates(order, map[k := fid])
    requires forall i :: 0 <= i < |p.members| ==> p.members[i].id != k
    requires forall i :: 0 <= i < |env.registry| ==> env.registry[i].id == fid ==> !Flagged(env.registry[i], true)
    ensures ChangeFunctions(p, map[k := fid], order, env) == NoAdminAssigned(p)
  {
    var a := map[k := fid];
    forall v | v in a.Values ensures v == fid {
      var key :| key in a && a[key] == v;
    }
  }

  // ---------------------------------------------------------------------
  // Creation

  /** The function `Function.find` returns for the admin's id is the admin
      itself once document ids are distinct. */
  lemma FindAdmin(reg: Registry)
    requires DistinctIds(reg) && Admin(reg).Some?
    ensures Find(reg, Admin(reg).value.id) == Admin(reg)
  {
    var k :| FirstFlagged(reg, k, true) && reg[k] == Admin(reg).value;
    FindStored(reg, reg[k]);
  }

  /** Creating a project with `new_with_admin_member` and saving it, with an
      admin function stored, the user known and a free name: the save
      succeeds, the founder is the only member and an admin holding
      `Function.admin`, and exactly one `created` event by the founder is
      recorded. */
  lemma CreateWithAdminMember(attrs: Attributes, user: User, env: Env, memberId: Id)
    requires DistinctIds(env.registry) && Admin(env.registry).Some?
    requires user.id in env.users
    requires attrs.name.Some? && !Blank(attrs.name.value) && attrs.name.value !in env.otherNames
    ensures Resolvable(NewWithAdminMember(attrs, user, env.registry, memberId), env)
    ensures var r := Save(NewWithAdminMember(attrs, user, env.registry, memberId), env);
      && r.Saved?
      && r.project.persisted
      && |r.project.members| == 1
      && r.project.members[0].userId == user.id
      && r.project.members[0].functionId == Some(Admin(env.registry).value.id)
      && IsAdmin(r.project.members[0])
      && r.project.members[0].userName == Some(env.users[user.id])
      && r.project.events == [Event(Created, user.id)]
  {
    var reg := env.registry;
    FindAdmin(reg);
    var p := NewWithAdminMember(attrs, user, reg, memberId);
    assert Resolvable(p, env);
    var q := Normalise(p, env);
    assert IsAdmin(q.members[0]);
    assert Violations(q, env.otherNames) == [];
  }

  /** Without a stored admin function, `new_with_admin_member` builds a
      member whose function is nil, and the refresh a save runs cannot
      resolve it. */
  lemma CreateWithoutAdminFunction(attrs: Attributes, user: User, env: Env, memberId: Id)
    requires Admin(env.registry).None?
    ensures !Resolvable(NewWithAdminMember(attrs, user, env.registry, memberId), env)
  {
    var p := NewWithAdminMember(attrs, user, env.registry, memberId);
    assert !Resolves(p.members[0], env.registry, env.users);
  }

  /** A project built without a creator and otherwise valid is inserted
      and then the after_create hook raises: no event is recorded. */
  lemma CreateWithoutCreator(attrs: Attributes, user: User, f: Function, env: Env, memberId: Id)
    requires DistinctIds(env.registry) && f in env.registry && Flagged(f, true)
    requires user.id in env.users
    requires attrs.name.Some? && !Blank(attrs.name.value) && attrs.name.value !in env.otherNames
    ensures Resolvable(AddMember(NewProject(attrs), user, f, memberId), env)
    ensures var r := Save(AddMember(NewProject(attrs), user, f, memberId), env);
      r.CreatorMissing? && r.project.persisted && r.project.events == []
  {
    var p0 := NewProject(attrs);
    var m := Member(memberId, user.id, Some(user.login), Some(f.id), Some(f.name), f.projectAdmin);
    assert !HasMember(p0, user.id);
    var p := AddMember(p0, user, f, memberId);
    assert p == p0.(members := [m]);
    FindStored(env.registry, f);
    assert Resolvable(p, env) by { assert Resolves(p.members[0], env.registry, env.users); }
    HoldsAdminFunction(p, env, 0, f);
    assert DistinctUsers(p.members);
    assert NamePresent(p) && !NameClashes(p, env.otherNames);
    assert Valid(p, env);
  }
}

=== FILE: projects.dfy ===
/**
 The Project aggregate: a project document with its embedded members, its
 milestones, tickets and audit events, the queries and mutations on it,
 and the save path that refreshes the members' copied fields, validates
 the project and records creation and update events.

 Persistence is a value: `Save` returns the project as it stands after the
 save together with how the save ended. What a save consults outside the
 document (the Function registry, the users, the other projects' names)
 is passed in as an `Env`.
 */
module Projects {
  import opened Common
  import opened Functions
  import opened Members
  import opened Milestones
  import opened Tags

  datatype EventKind = Created | Updated

  /** An audit event on the project: what happened and which user did it. */
  datatype Event = Event(kind: EventKind, userId: Id)

  /** A project. `persisted` is false until the first successful insert;
      `userCreator` and `userUpdate` are the transient actors a caller sets
      before saving (they stay set after the save). */
  datatype Project = Project(
    persisted: bool,
    name: Option<string>,
    description: Option<string>,
    numTicket: Option<int>,
    tagCounts: map<string, nat>,
    members: seq<Member>,
    milestones: seq<Milestone>,
    tickets: seq<Ticket>,
    events: seq<Event>,
    userCreator: Option<Id>,
    userUpdate: Option<Id>)

  /** What a save reads besides the project: the Function registry, the
      stored users' logins, and the names of all other stored projects. */
  datatype Env = Env(registry: Registry, users: Directory, otherNames: set<string>)

  // ---------------------------------------------------------------------
  // Membership queries

  /** The test "this member is for that user". */
  function SameUser(userId: Id): Member -> bool {
    (m: Member) => m.userId == userId
  }

  /** Some member is for that user. */
  predicate HasMember(p: Project, userId: Id) {
    exists i :: 0 <= i < |p.members| && p.members[i].userId == userId
  }

  /** `has_member?(user)`: `any?` over the members, testing the user id. */
  function AnyMember(p: Project, userId: Id): (b: bool)
    ensures b <==> HasMember(p, userId)
  {
    Any(p.members, SameUser(userId))
  }

  /** `project_membership(user)`: the first member for that user, or nil. */
  function ProjectMembership(p: Project, userId: Id): (r: Option<Member>)
    ensures r.Some? <==> HasMember(p, userId)
    ensures r.Some? ==> r.value.userId == userId
    ensures r.Some? ==> exists i :: 0 <= i < |p.members| && p.members[i] == r.value
                                    && forall j :: 0 <= j < i ==> p.members[j].userId != userId
  {
    match FirstIndex(p.members, (m: Member) => m.userId == userId)
    case None => None
    case Some(i) => Some(p.members[i])
  }

  /** The number of members for a user. */
  function MembershipCount(p: Project, userId: Id): nat {
    |Filter(p.members, SameUser(userId))|
  }

  // ---------------------------------------------------------------------
  // Validation

  /** The before_validation hooks dereference `member.function` and
      `member.user`; they only run without error when both resolve. */
  predicate Resolvable(p: Project, env: Env) {
    forall i :: 0 <= i < |p.members| ==> Resolves(p.members[i], env.registry, env.users)
  }

  /** The function a resolvable member references. */
  function FunctionOf(m: Member, reg: Registry): Function
    requires m.functionId.Some? && Find(reg, m.functionId.value).Some?
  {
    Find(reg, m.functionId.value).value
  }

  /** The before_validation hooks `update_project_admin` and
      `update_user_name`: every member's function name, admin flag and user
      name are copied afresh from what it references. */
  function Normalise(p: Project, env: Env): (q: Project)
    requires Resolvable(p, env)
    ensures q.(members := p.members) == p
    ensures |q.members| == |p.members|
    ensures forall i :: 0 <= i < |p.members| ==>
      && q.members[i].id == p.members[i].id
      && q.members[i].userId == p.members[i].userId
      && q.members[i].functionId == p.members[i].functionId
      && q.members[i].functionName == Some(FunctionOf(p.members[i], env.registry).name)
      && q.members[i].projectAdmin == FunctionOf(p.members[i], env.registry).projectAdmin
      && q.members[i].userName == Some(env.users[p.members[i].userId])
    ensures Resolvable(q, env)
  {
    p.(members := seq(|p.members|, i requires 0 <= i < |p.members| =>
                        Refresh(p.members[i], env.registry, env.users)))
  }

  datatype Violation =
    | NameTaken     // :name, from the unique key
    | NeedAnAdmin   // :project_members, 'need an admin'
    | SameMembers   // :same_project_members, 'not several same member in project'
    | NameMissing   // :name, from validates_presence_of

  datatype Field = NameField | ProjectMembersField | SameProjectMembersField

  /** The field an error is reported on. */
  function FieldOf(v: Violation): Field {
    match v
    case NameTaken => NameField
    case NameMissing => NameField
    case NeedAnAdmin => ProjectMembersField
    case SameMembers => SameProjectMembersField
  }

  /** Some member reads as admin. */
  predicate HasAdmin(ms: seq<Member>) {
    exists i :: 0 <= i < |ms| && IsAdmin(ms[i])
  }

  /** `have_one_admin`: `any?` over the members' `project_admin?`. */
  function HaveOneAdmin(ms: seq<Member>): (b: bool)
    ensures b <==> HasAdmin(ms)
  {
    Any(ms, (m: Member) => IsAdmin(m))
  }

  /** No user is a member twice. */
  predicate DistinctUsers(ms: seq<Member>) {
    forall i, j :: 0 <= i < j < |ms| ==> ms[i].userId != ms[j].userId
  }

  /** `map(&:user_id)`. */
  function UserIds(ms: seq<Member>): (r: seq<Id>)
    ensures |r| == |ms| && forall i :: 0 <= i < |ms| ==> r[i] == ms[i].userId
  {
    seq(|ms|, i requires 0 <= i < |ms| => ms[i].userId)
  }

  /** `only_once_each_member`: `uniq!` on the user ids returns nil, that
      is, removes nothing. */
  function OnlyOnceEachMember(ms: seq<Member>): (b: bool)
    ensures b <==> DistinctUsers(ms)
  {
    var ids := UserIds(ms);
    assert NoDuplicates(ids) <==> DistinctUsers(ms);
    |Uniq(ids)| == |ids|
  }

  predicate NamePresent(p: Project) {
    p.name.Some? && !Blank(p.name.value)
  }

  predicate NameClashes(p: Project, otherNames: set<string>) {
    p.name.Some? && p.name.value in otherNames
  }

  /** The validation errors of an (already refreshed) project, in the order
      the validations are declared; each kind at most once. */
  function Violations(p: Project, otherNames: set<string>): (r: seq<Violation>)
    ensures NameTaken in r <==> NameClashes(p, otherNames)
    ensures NeedAnAdmin in r <==> !HasAdmin(p.members)
    ensures SameMembers in r <==> !DistinctUsers(p.members)
    ensures NameMissing in r <==> !NamePresent(p)
    ensures forall i, j :: 0 <= i < j < |r| ==> r[i] != r[j]
  {
    (if NameClashes(p, otherNames) then [NameTaken] else [])
    + (if HasAdmin(p.members) then [] else [NeedAnAdmin])
    + (if DistinctUsers(p.members) then [] else [SameMembers])
    + (if NamePresent(p) then [] else [NameMissing])
  }

  /** `valid?`: the refreshed project has no validation error, that is, its
      name is present and free, a refreshed member is admin, and no user is
      a member twice. */
  function Valid(p: Project, env: Env): (b: bool)
    requires Resolvable(p, env)
    ensures b <==>
      && NamePresent(p) && !NameClashes(p, env.otherNames)
      && HasAdmin(Normalise(p, env).members) && DistinctUsers(p.members)
  {
    var q := Normalise(p, env);
    var vs := Violations(q, env.otherNames);
    assert vs != [] ==> vs[0] in vs;
    assert DistinctUsers(q.members) == DistinctUsers(p.members);
    vs == []
  }

  // ---------------------------------------------------------------------
  // Saving

  /** How a save ends: `save` returns true for `Saved` and false for
      `Rejected`; `CreatorMissing` is the ArgumentError raised by the
      after_create hook, after the document was inserted. In every case
      `project` is the in-memory project afterwards (a failed validation
      does not undo the refresh). */
  datatype SaveOutcome =
    | Saved(project: Project)
    | Rejected(project: Project, violations: seq<Violation>)
    | CreatorMissing(project: Project)

  /** `save`: refresh, validate, insert or update, then record the event. */
  function Save(p: Project, env: Env): (r: SaveOutcome)
    requires Resolvable(p, env)
    ensures r.Rejected? <==> !Valid(p, env)
    ensures r.Rejected? ==>
      r.project == Normalise(p, env) && r.violations == Violations(Normalise(p, env), env.otherNames)
    ensures r.project.(events := p.events, persisted := p.persisted) == Normalise(p, env)
    ensures r.Saved? || r.CreatorMissing? ==> r.project.persisted
    // creation: one `created` event by the creator, or ArgumentError without one
    ensures Valid(p, env) && !p.persisted ==>
      if p.userCreator.Some? then r.Saved? && r.project.events == p.events + [Event(Created, p.userCreator.value)]
      else r.CreatorMissing? && r.project.events == p.events
    // update: one `updated` event when an updater is set, none otherwise
    ensures Valid(p, env) && p.persisted ==>
      r.Saved? && r.project.events == p.events + (if p.userUpdate.Some? then [Event(Updated, p.userUpdate.value)] else [])
  {
    var q := Normalise(p, env);
    var vs := Violations(q, env.otherNames);
    if vs != [] then Rejected(q, vs)
    else if !q.persisted then
      match q.userCreator
      case None => CreatorMissing(q.(persisted := true))
      case Some(u) => Saved(q.(persisted := true, events := q.events + [Event(Created, u)]))
    else
      match q.userUpdate
      case None => Saved(q)
      case Some(u) => Saved(q.(events := q.events + [Event(Updated, u)]))
  }

  // ---------------------------------------------------------------------
  // Ticket numbering and tag counts

  /** `new_num_ticket` up to its `save!`: the number handed out is the
      stored counter, or 1 when the counter is nil, and the counter is left
      one past it. */
  function IssueNumber(p: Project): (r: (int, Project))
    ensures p.numTicket.None? ==> r.0 == 1
    ensures p.numTicket.Some? ==> r.0 == p.numTicket.value
    ensures r.1.numTicket == Some(r.0 + 1)
    ensures r.1.(numTicket := p.numTicket) == p
  {
    var current := match p.numTicket case None => 1 case Some(n) => n;
    (current, p.(numTicket := Some(current + 1)))
  }

  /** `new_num_ticket`: the number and the outcome of the `save!` (which
      raises unless the outcome is `Saved`, so the number only reaches the
      caller then). */
  function NewNumTicket(p: Project, env: Env): (r: (int, SaveOutcome))
    requires Resolvable(p, env)
    ensures r.0 == IssueNumber(p).0
    ensures r.1.project.numTicket == Some(r.0 + 1)
  {
    var (n, q) := IssueNumber(p);
    (n, Save(q, env))
  }

  /** `update_tag_counts`: replace the map by a fresh count over all
      tickets, then `save!`. */
  function UpdateTagCounts(p: Project, env: Env): (r: SaveOutcome)
    requires Resolvable(p, env)
    ensures r.project.tickets == p.tickets
    ensures forall t :: t in r.project.tagCounts <==> Occurrences(p.tickets, t) > 0
    ensures forall t :: t in r.project.tagCounts ==> r.project.tagCounts[t] == Occurrences(p.tickets, t)
  {
    Save(p.(tagCounts := TagCounts(p.tickets)), env)
  }

  // ---------------------------------------------------------------------
  // Membership changes

  /** `add_member(user, function)`: nothing when the user is already a
      member; otherwise one member is appended with the user's login and
      the function's name and flag copied in. `memberId` is the id the new
      embedded document receives. The project is not saved. */
  function AddMember(p: Project, user: User, f: Function, memberId: Id): (r: Project)
    ensures HasMember(r, user.id)
    ensures HasMember(p, user.id) ==> r == p
    ensures !HasMember(p, user.id) ==>
      && r.(members := p.members) == p
      && |r.members| == |p.members| + 1
      && r.members[..|p.members|] == p.members
      && r.members[|p.members|] == Member(memberId, user.id, Some(user.login), Some(f.id), Some(f.name), f.projectAdmin)
    ensures ProjectMembership(r, user.id) ==
      if HasMember(p, user.id) then ProjectMembership(p, user.id) else Some(r.members[|p.members|])
  {
    if AnyMember(p, user.id) then p
    else
      var m := Member(memberId, user.id, Some(user.login), Some(f.id), Some(f.name), f.projectAdmin);
      var r := p.(members := p.members + [m]);
      assert r.members[|p.members|] == m;
      assert forall j :: 0 <= j < |p.members| ==> r.members[j] == p.members[j];
      r
  }

  /** Position `i` holds the first member with its id: the one `detect` finds. */
  predicate FirstWithId(ms: seq<Member>, i: int)
    requires 0 <= i < |ms|
  {
    forall j :: 0 <= j < i ==> ms[j].id != ms[i].id
  }

  /** The effect of the loop of `change_functions`, stated once for the
      whole hash: the member `detect` finds for each key holds the mapped
      function id, and every other member is left as it was. It does not
      depend on the order the loop visits the keys in (`ReassignAnyOrder`). */
  function Reassign(ms: seq<Member>, assignment: map<Id, Id>): (r: seq<Member>)
    ensures |r| == |ms|
    ensures forall i :: 0 <= i < |ms| && ms[i].id in assignment && FirstWithId(ms, i) ==>
      r[i] == ms[i].(functionId := Some(assignment[ms[i].id]))
    ensures forall i :: 0 <= i < |ms| && !(ms[i].id in assignment && FirstWithId(ms, i)) ==>
      r[i] == ms[i]
  {
    seq(|ms|, i requires 0 <= i < |ms| =>
      if ms[i].id in assignment && FirstWithId(ms, i)
      then ms[i].(functionId := Some(assignment[ms[i].id]))
      else ms[i])
  }

  /** The entries of a hash in the order `each` visits them: every key once,
      with its value. A Ruby 1.8 hash promises no order, so any such listing
      may be the one the loop walks. */
  predicate Enumerates(entries: seq<(Id, Id)>, assignment: map<Id, Id>) {
    && (forall e :: 0 <= e < |entries| ==>
          entries[e].0 in assignment && assignment[entries[e].0] == entries[e].1)
    && (forall e, d :: 0 <= e < d < |entries| ==> entries[e].0 != entries[d].0)
    && (forall k :: k in assignment ==> exists e :: 0 <= e < |entries| && entries[e].0 == k)
  }

  /** Some member carries the id `k`, so `detect` does not return nil. */
  predicate Detects(ms: seq<Member>, k: Id) {
    exists i :: 0 <= i < |ms| && ms[i].id == k
  }

  /** One iteration of the loop of `change_functions`: `detect` the first
      member whose id is `k` and set its function id to `Function.find(v).id`. */
  function Step(ms: seq<Member>, reg: Registry, k: Id, v: Id): (r: seq<Member>)
    requires Detects(ms, k) && Find(reg, v).Some?
    ensures |r| == |ms|
    ensures forall i :: 0 <= i < |ms| && ms[i].id == k && FirstWithId(ms, i) ==>
      r[i] == ms[i].(functionId := Some(v))
    ensures forall i :: 0 <= i < |ms| && !(ms[i].id == k && FirstWithId(ms, i)) ==> r[i] == ms[i]
  {
    var i :| 0 <= i < |ms| && ms[i].id == k;
    var found := FirstIndex(ms, (m: Member) => m.id == k);
    assert found.Some? by { assert ((m: Member) => m.id == k)(ms[i]); }
    var n := found.value;
    ms[n := ms[n].(functionId := Some(Find(reg, v).value.id))]
  }

  /** Every entry names a member and a stored function. */
  predicate Applicable(ms: seq<Member>, reg: Registry, entries: seq<(Id, Id)>) {
    forall e :: 0 <= e < |entries| ==> Detects(ms, entries[e].0) && Find(reg, entries[e].1).Some?
  }

  /** The loop of `change_functions`: `Step` for each entry in turn. Only
      function ids change; `LoopEffect` says which. */
  function Loop(ms: seq<Member>, reg: Registry, entries: seq<(Id, Id)>): (r: seq<Member>)
    requires Applicable(ms, reg, entries)
    ensures |r| == |ms|
    ensures forall i :: 0 <= i < |ms| ==> r[i] == ms[i].(functionId := r[i].functionId)
    decreases |entries|
  {
    if |entries| == 0 then ms
    else
      var s := Step(ms, reg, entries[0].0, entries[0].1);
      StepApplicable(ms, reg, entries);
      Loop(s, reg, entries[1..])
  }

  /** After one step the remaining entries still apply: ids do not change. */
  lemma StepApplicable(ms: seq<Member>, reg: Registry, entries: seq<(Id, Id)>)
    requires Applicable(ms, reg, entries) && |entries| > 0
    ensures Applicable(Step(ms, reg, entries[0].0, entries[0].1), reg, entries[1..])
  {
    var s := Step(ms, reg, entries[0].0, entries[0].1);
    forall e | 0 <= e < |entries[1..]| ensures Detects(s, entries[1..][e].0) {
      var i :| 0 <= i < |ms| && ms[i].id == entries[e + 1].0;
      assert s[i].id == entries[1..][e].0;
    }
  }

  /** With every key visited once, the loop leaves the first member with
      each key holding that key's function id, and every other member as
      it was. */
  lemma {:induction false} LoopEffect(ms: seq<Member>, reg: Registry, entries: seq<(Id, Id)>)
    requires Applicable(ms, reg, entries)
    requires forall e, d :: 0 <= e < d < |entries| ==> entries[e].0 != entries[d].0
    ensures forall i, e ::
      (0 <= i < |ms| && 0 <= e < |entries| && ms[i].id == entries[e].0 && FirstWithId(ms, i)) ==>
      Loop(ms, reg, entries)[i].functionId == Some(entries[e].1)
    ensures forall i :: 0 <= i < |ms| && !(FirstWithId(ms, i) && exists e :: 0 <= e < |entries| && entries[e].0 == ms[i].id) ==>
      Loop(ms, reg, entries)[i] == ms[i]
    decreases |entries|
  {
    if |entries| > 0 {
      var s := Step(ms, reg, entries[0].0, entries[0].1);
      StepApplicable(ms, reg, entries);
      var rest := entries[1..];
      LoopEffect(s, reg, rest);
      var r := Loop(ms, reg, entries);
      assert r == Loop(s, reg, rest);
      assert forall i :: 0 <= i < |ms| ==> (FirstWithId(s, i) <==> FirstWithId(ms, i));
      forall i, e | 0 <= i < |ms| && 0 <= e < |entries| && ms[i].id == entries[e].0 && FirstWithId(ms, i)
        ensures r[i].functionId == Some(entries[e].1)
      {
        if e == 0 {
          forall d | 0 <= d < |rest| ensures rest[d].0 != s[i].id {
            assert entries[0].0 != entries[d + 1].0;
          }
        } else {
          assert rest[e - 1] == entries[e];
        }
      }
      forall i | 0 <= i < |ms| && !(FirstWithId(ms, i) && exists e :: 0 <= e < |entries| && entries[e].0 == ms[i].id)
        ensures r[i] == ms[i]
      {
        if FirstWithId(ms, i) {
          forall d | 0 <= d < |rest| ensures rest[d].0 != s[i].id {
            assert entries[d + 1].0 != ms[i].id;
          }
        }
      }
    }
  }

  /** Whatever order the hash is walked in, the loop produces `Reassign`. */
  lemma {:induction false} ReassignAnyOrder(ms: seq<Member>, reg: Registry, entries: seq<(Id, Id)>, assignment: map<Id, Id>)
    requires Enumerates(entries, assignment)
    requires forall k :: k in assignment ==> Detects(ms, k) && Find(reg, assignment[k]).Some?
    ensures Applicable(ms, reg, entries)
    ensures Loop(ms, reg, entries) == Reassign(ms, assignment)
  {
    LoopEffect(ms, reg, entries);
    var r, q := Loop(ms, reg, entries), Reassign(ms, assignment);
    forall i | 0 <= i < |ms| ensures r[i] == q[i] {
      if ms[i].id in assignment && FirstWithId(ms, i) {
        var e :| 0 <= e < |entries| && entries[e].0 == ms[i].id;
      }
    }
  }

  /** Some stored function flagged project_admin has its id among the
      assigned function ids. */
  predicate AssignsAdmin(reg: Registry, assignment: map<Id, Id>) {
    exists f :: f in reg && Flagged(f, true) && f.id in assignment.Values
  }

  /** The fast check of `change_functions`: `Function.exists?` with
      `project_admin` true and the id among the assigned function ids. */
  function AdminExists(reg: Registry, assignment: map<Id, Id>): (b: bool)
    ensures b <==> AssignsAdmin(reg, assignment)
  {
    var r := Any(reg, (f: Function) => Flagged(f, true) && f.id in assignment.Values);
    assert r ==> exists i :: 0 <= i < |reg| && reg[i] in reg && Flagged(reg[i], true) && reg[i].id in assignment.Values;
    r
  }

  /** How `change_functions` ends: refused by the fast check (returning
      false, the project untouched), or after reassigning and saving. */
  datatype ChangeResult = NoAdminAssigned(kept: Project) | Attempted(outcome: SaveOutcome)

  /** The boolean `change_functions` returns. */
  predicate Succeeded(r: ChangeResult) {
    r.Attempted? && r.outcome.Saved?
  }

  /** `change_functions(assignment)`, mapping member ids to function ids;
      `order` is the order `each` walks the hash in. The fast check comes
      first and needs nothing. Past it, every key must name a member and
      every value a stored function (the source dereferences nil
      otherwise), and every member must resolve once reassigned (for the
      refresh the save runs). The outcome is the same for every order. */
  function ChangeFunctions(p: Project, assignment: map<Id, Id>, order: seq<(Id, Id)>, env: Env): (r: ChangeResult)
    requires Enumerates(order, assignment)
    requires AssignsAdmin(env.registry, assignment) ==>
      forall k :: k in assignment ==> Detects(p.members, k)
    requires AssignsAdmin(env.registry, assignment) ==>
      forall k :: k in assignment ==> Find(env.registry, assignment[k]).Some?
    requires AssignsAdmin(env.registry, assignment) ==>
      Resolvable(p.(members := Reassign(p.members, assignment)), env)
    ensures r.NoAdminAssigned? <==> !AssignsAdmin(env.registry, assignment)
    ensures r.NoAdminAssigned? ==> !Succeeded(r) && r.kept == p
    ensures r.Attempted? ==> r.outcome == Save(p.(members := Reassign(p.members, assignment)), env)
  {
    if !AdminExists(env.registry, assignment) then NoAdminAssigned(p)
    else
      ReassignAnyOrder(p.members, env.registry, order, assignment);
      Attempted(Save(p.(members := Loop(p.members, env.registry, order)), env))
  }

  // ---------------------------------------------------------------------
  // Creation

  /** The attributes a project is created from. */
  datatype Attributes = Attributes(name: Option<string>, description: Option<string>)

  /** `Project.new(attributes)`: an unsaved project with no children. */
  function NewProject(attrs: Attributes): (p: Project)
    ensures !p.persisted && p.name == attrs.name && p.description == attrs.description
    ensures p.numTicket.None? && p.tagCounts == map[]
    ensures p.members == [] && p.milestones == [] && p.tickets == [] && p.events == []
    ensures p.userCreator.None? && p.userUpdate.None?
  {
    Project(false, attrs.name, attrs.description, None, map[], [], [], [], [], None, None)
  }

  /** `Project.new_with_admin_member(attributes, user)`: a new project whose
      only member is the user holding `Function.admin` (nil when no function
      is flagged), with the user as creator. Nothing is copied into the
      member yet: the save's refresh does that. */
  function NewWithAdminMember(attrs: Attributes, user: User, reg: Registry, memberId: Id): (p: Project)
    ensures !p.persisted && p.name == attrs.name && p.description == attrs.description
    ensures |p.members| == 1 && p.members[0].id == memberId && p.members[0].userId == user.id
    ensures p.members[0].functionId == (if Admin(reg).Some? then Some(Admin(reg).value.id) else None)
    ensures p.userCreator == Some(user.id) && p.userUpdate.None? && p.events == []
  {
    var fid := match Admin(reg) case None => None case Some(f) => Some(f.id);
    NewProject(attrs).(members := [Member(memberId, user.id, None, fid, None, None)],
                       userCreator := Some(user.id))
  }
}

=== FILE: tags.dfy ===
/**
 Tag aggregation: a project's `tag_counts` maps every tag used by its
 tickets to the number of times it occurs, recomputed from scratch.
 */
module Tags {

  /** A ticket, as far as tag counting sees it: its list of tags. */
  datatype Ticket = Ticket(tags: seq<string>)

  /** The tags of all tickets, concatenated in ticket order (the
      `map { tags.to_a }.flatten` of the source). */
  function AllTags(ts: seq<Ticket>): seq<string> {
    if |ts| == 0 then [] else ts[0].tags + AllTags(ts[1..])
  }

  /** Reference definition: the number of occurrences of `t`, summed over tickets. */
  function Occurrences(ts: seq<Ticket>, t: string): nat {
    if |ts| == 0 then 0 else multiset(ts[0].tags)[t] + Occurrences(ts[1..], t)
  }

  /** The counting loop: tags are visited in order, a tag seen for the first
      time gets 1, a tag seen again has its count incremented. */
  function CountTags(tags: seq<string>): (r: map<string, nat>)
    ensures forall t :: t in r <==> t in tags
    ensures forall t :: t in r ==> r[t] == multiset(tags)[t]
    decreases |tags|
  {
    if |tags| == 0 then map[]
    else
      var init, last := tags[..|tags| - 1], tags[|tags| - 1];
      assert tags == init + [last];
      var counts := CountTags(init);
      counts[last := if last in counts then counts[last] + 1 else 1]
  }

  lemma {:induction false} AllTagsOccurrences(ts: seq<Ticket>, t: string)
    ensures multiset(AllTags(ts))[t] == Occurrences(ts, t)
    decreases |ts|
  {
    if |ts| > 0 {
      AllTagsOccurrences(ts[1..], t);
    }
  }

  /** `update_tag_counts`' map: every tag occurring on some ticket is a key,
      mapped to its total number of occurrences; no other string is a key. */
  function TagCounts(ts: seq<Ticket>): (r: map<string, nat>)
    ensures forall t :: t in r <==> Occurrences(ts, t) > 0
    ensures forall t :: t in r ==> r[t] == Occurrences(ts, t)
  {
    var all := AllTags(ts);
    forall t ensures multiset(all)[t] == Occurrences(ts, t) {
      AllTagsOccurrences(ts, t);
    }
    CountTags(all)
  }

  lemma {:induction false} OccurrencesAppend(a: seq<Ticket>, b: seq<Ticket>, t: string)
    ensures Occurrences(a + b, t) == Occurrences(a, t) + Occurrences(b, t)
    decreases |a|
  {
    if |a| == 0 {
      assert a + b == b;
    } else {
      assert (a + b)[1..] == a[1..] + b;
      OccurrencesAppend(a[1..], b, t);
    }
  }

  /** Occurrence counts do not depend on the order of the tickets. */
  lemma {:induction false} OccurrencesPermutation(a: seq<Ticket>, b: seq<Ticket>, t: string)
    requires multiset(a) == multiset(b)
    ensures Occurrences(a, t) == Occurrences(b, t)
    decreases |a|
  {
    if |a| == 0 {
      assert |multiset(b)| == 0;
      assert b == [];
    } else {
      var x := a[0];
      assert x in multiset(b);
      var k :| 0 <= k < |b| && b[k] == x;
      var b' := b[..k] + b[k+1..];
      assert b == b[..k] + [x] + b[k+1..];
      assert a == [x] + a[1..];
      assert multiset(b') == multiset(b) - multiset{x};
      assert multiset(a[1..]) == multiset(a) - multiset{x};
      OccurrencesPermutation(a[1..], b', t);
      OccurrencesRemove(b, k, t);
    }
  }

  /** Taking one ticket out of the sequence takes its tags out of the count. */
  lemma OccurrencesRemove(b: seq<Ticket>, k: int, t: string)
    requires 0 <= k < |b|
    ensures Occurrences(b, t) == multiset(b[k].tags)[t] + Occurrences(b[..k] + b[k+1..], t)
  {
    var x := b[k];
    assert b == b[..k] + [x] + b[k+1..];
    OccurrencesAppend(b[..k] + [x], b[k+1..], t);
    OccurrencesAppend(b[..k], [x], t);
    OccurrencesAppend(b[..k], b[k+1..], t);
    assert Occurrences([x], t) == multiset(x.tags)[t] + Occurrences([x][1..], t);
    assert [x][1..] == [];
  }

  /** Reordering the tickets yields the same tag counts. */
  lemma TagCountsOrderIndependent(a: seq<Ticket>, b: seq<Ticket>)
    requires multiset(a) == multiset(b)
    ensures TagCounts(a) == TagCounts(b)
  {
    forall t ensures Occurrences(a, t) == Occurrences(b, t) {
      OccurrencesPermutation(a, b, t);
    }
    assert TagCounts(a).Keys == TagCounts(b).Keys;
  }

  // The five tickets `[]`, `[foo]`, `[foo, bar]`, `[bar]`, `[foo, bar, baz]`,
  // added one at a time with a recompute after each, give the successive
  // counts `{}`, `{foo: 1}`, `{foo: 2, bar: 1}`, `{foo: 2, bar: 2}` and
  // `{foo: 3, bar: 3, baz: 1}`.

  lemma ExampleFirstTicket(ts: seq<Ticket>)
    requires ts == [Ticket([])]
    ensures TagCounts(ts) == map[]
  {
    var empty: seq<Ticket> := [];
    assert forall t :: Occurrences(empty, t) == 0;
    assert empty + [Ticket([])] == ts;
    RecomputeAfterAdding(empty, Ticket([]), map[], map[]);
  }

  lemma ExampleSecondTicket(ts: seq<Ticket>)
    requires ts == [Ticket([]), Ticket(["foo"])]
    ensures TagCounts(ts) == map["foo" := 1]
  {
    ExampleFirstTicket(ts[..1]);
    assert multiset(["foo"]) == multiset{"foo"};
    assert ts == ts[..1] + [Ticket(["foo"])];
    RecomputeAfterAdding(ts[..1], Ticket(["foo"]), map[], map["foo" := 1]);
  }

  lemma ExampleThirdTicket(ts: seq<Ticket>)
    requires ts == [Ticket([]), Ticket(["foo"]), Ticket(["foo", "bar"])]
    ensures TagCounts(ts) == map["foo" := 2, "bar" := 1]
  {
    ExampleSecondTicket(ts[..2]);
    assert "foo" != "bar";
    assert multiset(["foo", "bar"]) == multiset{"foo", "bar"};
    assert ts == ts[..2] + [Ticket(["foo", "bar"])];
    RecomputeAfterAdding(ts[..2], Ticket(["foo", "bar"]), map["foo" := 1], map["foo" := 2, "bar" := 1]);
  }

  lemma ExampleFourthTicket(ts: seq<Ticket>)
    requires ts == [Ticket([]), Ticket(["foo"]), Ticket(["foo", "bar"]), Ticket(["bar"])]
    ensures TagCounts(ts) == map["foo" := 2, "bar" := 2]
  {
    ExampleThirdTicket(ts[..3]);
    assert "foo" != "bar";
    assert multiset(["bar"]) == multiset{"bar"};
    assert ts == ts[..3] + [Ticket(["bar"])];
    RecomputeAfterAdding(ts[..3], Ticket(["bar"]), map["foo" := 2, "bar" := 1], map["foo" := 2, "bar" := 2]);
  }

  lemma ExampleFifthTicket(ts: seq<Ticket>)
    requires ts == [Ticket([]), Ticket(["foo"]), Ticket(["foo", "bar"]), Ticket(["bar"]), Ticket(["foo", "bar", "baz"])]
    ensures TagCounts(ts) == map["foo" := 3, "bar" := 3, "baz" := 1]
  {
    ExampleFourthTicket(ts[..4]);
    assert "foo" != "bar" && "foo" != "baz" && "bar" != "baz";
    assert multiset(["foo", "bar", "baz"]) == multiset{"foo", "bar", "baz"};
    assert ts == ts[..4] + [Ticket(["foo", "bar", "baz"])];
    RecomputeAfterAdding(ts[..4], Ticket(["foo", "bar", "baz"]),
                         map["foo" := 2, "bar" := 2], map["foo" := 3, "bar" := 3, "baz" := 1]);
  }

  /** Recomputing after one more ticket adds that ticket's tags to the
      previous counts: the full recompute agrees with an incremental update. */
  lemma RecomputeAfterAdding(ts: seq<Ticket>, x: Ticket, before: map<string, nat>, after: map<string, nat>)
    requires TagCounts(ts) == before
    requires forall t :: t in after <==> t in before || t in multiset(x.tags)
    requires forall t :: t in after ==> after[t] == (if t in before then before[t] else 0) + multiset(x.tags)[t]
    ensures TagCounts(ts + [x]) == after
  {
    var r := TagCounts(ts + [x]);
    forall t
      ensures t in r <==> t in after
      ensures t in r ==> r[t] == after[t]
    {
      OccurrencesAppend(ts, [x], t);
      assert [x][1..] == [];
      assert Occurrences([x], t) == multiset(x.tags)[t];
      assert t in before <==> Occurrences(ts, t) > 0;
    }
    assert r.Keys == after.Keys;
  }
}
